=== FILE: README.md ===
# K-in-a-row engine of the TicTacToe app, modelled in Dafny

This project models the game engine of the TicTacToe app (`BoardGame.kt`).
The source fixes `NUM_ROWS = NUM_COLS = ADJ_CELLS = 3`, but its logic is written
over those constants. The model therefore takes the board size `R × C` and the
line length `K` as parameters, with `1 <= K <= min(R, C)` (`Grid.Dims`).

The model has eight modules:

- `Grid`: the marks `NONE`/`X`/`O` (`Empty`/`X`/`O`), cells, boards as
  immutable sequences of rows, and the one-cell write.
- `Lines`: the winning-line index built by `initWinningLines`. For every
  `K × K` anchor it holds `K` horizontal lines, then `K` vertical lines, then
  the `\` diagonal, then the `/` diagonal.
- `ReverseIndex`: `winLinesByCell`, which lists for each cell the lines
  through it, in index order.
- `Evaluation`: the status values and the line scan shared by
  `getBoardStatus` and `evaluateCell`.
- `Minimax`: `minMax`, defined as a pure function. It is also written as a
  method that threads one shared board through the recursion, as the
  source's shallow copy does.
- `Limiter`: `calculateMaxDepth` and the root region of `bestMove`.
- `Session`: the game state (`BoardGame`'s fields) and its operations:
  `clearScores`, `clearBoard`, `clearAll`, `getBoardStatus`, `makeMove`,
  `randomMove`, `randomBestMove` and `bestMove`.
- `Options`: an option type.

The random draws of `randomMove` and `randomBestMove` are parameters: an
index into the candidate list. `bestMove` takes any natural `pick` and
reduces it modulo the number of tied best cells.

## Model

| member | source | states |
|---|---|---|
| Grid.Put | app/src/main/java/com/sesaras/tictactoe/BoardGame.kt:288 | writing a mark keeps the board's shape, sets the target cell and leaves every other cell as it was |
| Grid.PutFillsOneCell | app/src/main/java/com/sesaras/tictactoe/BoardGame.kt:498-503 | placing a mark on a NONE cell leaves exactly one NONE cell fewer, which is why the search terminates |
| Grid.UndoRestores | app/src/main/java/com/sesaras/tictactoe/BoardGame.kt:509-512 | resetting a just-filled cell to NONE gives back the board as it was before the apply |
| Grid.CellsFrom | app/src/main/java/com/sesaras/tictactoe/BoardGame.kt:496-497 | the row-major enumeration from (r, col) lists exactly the board cells at or after that position, each once, in strictly increasing row-major order |
| Lines.WinningLines | app/src/main/java/com/sesaras/tictactoe/BoardGame.kt:671-697 | the index is built anchor by anchor, anchor rows top to bottom and each row left to right; its size, order and contents are stated by the lemmas below |
| Lines.AnchorLines | app/src/main/java/com/sesaras/tictactoe/BoardGame.kt:674-695 | one anchor contributes 2K+2 lines; which cells each holds, and at which offset, is stated by `Lines.WinningLinesOrder` |
| Lines.WinningLinesCount | app/src/main/java/com/sesaras/tictactoe/BoardGame.kt:671-697 | the index holds (R-K+1)·(C-K+1)·(2K+2) lines |
| Lines.ClassicBoardHasEightLines | app/src/main/java/com/sesaras/tictactoe/BoardGame.kt:22-25 | the 3×3 board with K = 3 has 8 winning lines |
| Lines.WinningLinesOrder | app/src/main/java/com/sesaras/tictactoe/BoardGame.kt:673-696 | for anchor (y, x): the row-y+i horizontal is at offset i, the column-x+i vertical at K+i, then the `\` diagonal, then the `/` diagonal, in anchor row-major order |
| Lines.IndexAt | app/src/main/java/com/sesaras/tictactoe/BoardGame.kt:671-697 | the lines of anchor (y, x) start at position (y·(C-K+1) + x)·(2K+2) of the index, in the order horizontals, verticals, `\`, `/` |
| Lines.WinningLinesShape | app/src/main/java/com/sesaras/tictactoe/BoardGame.kt:671-697 | every indexed line is a run of K consecutive cells in one of the four directions, lies on the board and has distinct cells |
| Lines.WinningLinesComplete | app/src/main/java/com/sesaras/tictactoe/BoardGame.kt:671-697 | every run of K cells that fits on the board, in any of the four directions, is in the index |
| ReverseIndex.LinesThrough | app/src/main/java/com/sesaras/tictactoe/BoardGame.kt:706-728 | a cell's list holds a line iff the line contains the cell, and it is a subsequence of the index, so the index order is kept |
| ReverseIndex.LinesThroughMultiplicity | app/src/main/java/com/sesaras/tictactoe/BoardGame.kt:706-728 | each line through the cell occurs in the cell's list exactly as often as in the index, and no other line occurs |
| ReverseIndex.BuildReverseIndex | app/src/main/java/com/sesaras/tictactoe/BoardGame.kt:700-729 | for every cell of the board, the table lists a line iff it is a line of the index that passes through that cell, in index order |
| ReverseIndex.ReverseIndexMembership | app/src/main/java/com/sesaras/tictactoe/BoardGame.kt:700-729 | on a valid board, a line is listed for a cell iff it is a winning line through that cell, and no cell lists more lines than the index has |
| Evaluation.Complete | app/src/main/java/com/sesaras/tictactoe/BoardGame.kt:199-206 | a line is complete when its first cell holds a player's mark and every cell holds that mark; for K >= 2 this is the adjacent-pair test (Evaluation.AsWrittenAgreesFromTwoCells) |
| Evaluation.Relative | app/src/main/java/com/sesaras/tictactoe/BoardGame.kt:633-640 | from `player`'s side a won line is WIN iff its first cell holds `player`'s mark and LOSE otherwise; a draw is DRAW and an open game UNKNOWN |
| Evaluation.FindLine | app/src/main/java/com/sesaras/tictactoe/BoardGame.kt:197-215 | the line found is complete and no earlier line is; nothing is found iff no line is complete |
| Evaluation.Scan | app/src/main/java/com/sesaras/tictactoe/BoardGame.kt:197-224 | a win iff some line is complete, with every cell of the first complete line holding the winner's mark; a draw iff no line is complete and no NONE cell is left; open iff no line is complete and a NONE cell remains |
| Evaluation.EvaluateCell | app/src/main/java/com/sesaras/tictactoe/BoardGame.kt:605-653 | WIN or LOSE iff a line through the cell is complete. WIN only if a complete line holds `player`'s mark, and always when every complete line does. LOSE only if one holds the other mark, and always when every complete line does. Otherwise DRAW iff the board is full, else UNKNOWN |
| Evaluation.AsWrittenAgreesFromTwoCells | app/src/main/java/com/sesaras/tictactoe/BoardGame.kt:199-205 | for lines of two or more cells, the adjacent-pair loop accepts a line iff it is complete |
| Evaluation.AsWrittenAcceptsEmptySingleCell | app/src/main/java/com/sesaras/tictactoe/BoardGame.kt:617-630 | with K = 1 the adjacent-pair loop accepts a NONE cell as a complete line |
| Evaluation.FindLineThrough | app/src/main/java/com/sesaras/tictactoe/BoardGame.kt:605-653 | when every complete line passes through a cell, the first complete line among that cell's lines is the first complete line of the whole index |
| Evaluation.IncrementalAgreesWithFull | app/src/main/java/com/sesaras/tictactoe/BoardGame.kt:605-653 | when every complete line passes through a cell, scanning only that cell's lines gives the same verdict as the full scan |
| Evaluation.MoveCompletesOnlyLinesThroughIt | app/src/main/java/com/sesaras/tictactoe/BoardGame.kt:498-503 | on a board with no complete line, a move can complete only lines through the cell it fills |
| Evaluation.EvaluateCellAfterMove | app/src/main/java/com/sesaras/tictactoe/BoardGame.kt:478-480 | right after a move on a board that has no winner, `evaluateCell` at the moved cell equals the full `getBoardStatus` scan, seen from the player's side |
| Minimax.MinMax | app/src/main/java/com/sesaras/tictactoe/BoardGame.kt:451-528 | the score is always LOSE, DRAW or WIN, and is LOSE whenever the depth exceeds the ceiling |
| Minimax.Explore | app/src/main/java/com/sesaras/tictactoe/BoardGame.kt:496-514 | the move loop yields scores, never lowers the running maximum and never raises the running minimum |
| Minimax.Step | app/src/main/java/com/sesaras/tictactoe/BoardGame.kt:498-512 | one loop iteration yields scores, never lowers the maximum and never raises the minimum |
| Minimax.Search | app/src/main/java/com/sesaras/tictactoe/BoardGame.kt:451-528 | with the rows shared with the caller, the board is restored to its entry contents on every return path, and the score equals the pure `MinMax` |
| Minimax.SearchMoves | app/src/main/java/com/sesaras/tictactoe/BoardGame.kt:496-514 | the row/column loops over the shared board restore it and compute the same bounds as `Explore` over all cells |
| Minimax.SearchRow | app/src/main/java/com/sesaras/tictactoe/BoardGame.kt:497-513 | one pass of the column loop over the shared board restores it and carries the running bounds exactly as `Explore` does across that row |
| Minimax.SearchCell | app/src/main/java/com/sesaras/tictactoe/BoardGame.kt:498-512 | apply, recurse and undo restore the shared board and compute what `Step` does |
| Minimax.CompletingMoveDecides | app/src/main/java/com/sesaras/tictactoe/BoardGame.kt:466-480 | within the depth ceiling, a move that completes a line on a board that had none scores WIN for the computer's mark and LOSE for the human's |
| Limiter.CalculateMaxDepth | app/src/main/java/com/sesaras/tictactoe/BoardGame.kt:300-315 | for p >= 1 plays left, the ceiling is the least d >= 1 with p·(p-1)·…·(p-d) over the budget or d = p, so 1 <= d <= p |
| Limiter.FallingGrows | app/src/main/java/com/sesaras/tictactoe/BoardGame.kt:306-312 | the node-count estimate is positive and never shrinks as the depth grows below p |
| Limiter.SmallBoardSearchesToTheEnd | app/src/main/java/com/sesaras/tictactoe/BoardGame.kt:22-27 | on a board of at most nine cells, 9! is under the budget, so the ceiling equals the number of plays left |
| Limiter.RootRegion | app/src/main/java/com/sesaras/tictactoe/BoardGame.kt:320-342 | the root bounds lie on the board, and a cell is a root candidate iff it is on the board and, with `limitAnalysis`, within `AnalysisRatio` of the last move in both coordinates |
| Session.Valid | app/src/main/java/com/sesaras/tictactoe/BoardGame.kt:30-66 | the session invariant over `BoardGame`'s fields: the line index and reverse index are those of the board's dimensions, both boards have the board's shape, the players hold opposite marks, and `gameEnd` holds exactly when the memoised status is terminal |
| Session.ClearedScores | app/src/main/java/com/sesaras/tictactoe/BoardGame.kt:531-536 | the score board has the board's shape and every entry is UNKNOWN (-20) |
| Session.NewSession | app/src/main/java/com/sesaras/tictactoe/BoardGame.kt:68-71 | a new session is consistent, has an empty board, an open game, no plays and zero tallies |
| Session.ClearBoard | app/src/main/java/com/sesaras/tictactoe/BoardGame.kt:271-285 | every cell NONE, scores cleared, no plays, depth ceiling 15, game open with status UNKNOWN; tallies and every other field kept |
| Session.ClearAll | app/src/main/java/com/sesaras/tictactoe/BoardGame.kt:260-268 | every cell NONE, scores cleared, no plays, depth ceiling 15, game open with status UNKNOWN and all three tallies zero; every other field kept |
| Session.GetBoardStatus | app/src/main/java/com/sesaras/tictactoe/BoardGame.kt:182-256 | a terminal status is returned with no side effect. Otherwise WIN iff a line is complete: the winner and the first complete line are recorded and that side's tally rises by one. DRAW iff no line is complete and the board is full: the draw tally rises by one. An open game is left unchanged. Exactly one counter rises by one when the status turns terminal, and no counter ever falls |
| Session.StatusIdempotent | app/src/main/java/com/sesaras/tictactoe/BoardGame.kt:192-194 | a second status query straight after the first returns the same result and changes nothing |
| Session.MakeMove | app/src/main/java/com/sesaras/tictactoe/BoardGame.kt:288-297 | exactly the chosen cell gets the mark; the move, the mover and one more play are recorded; a game ending on this move is tallied once in exactly one counter; on a win, the recorded winner and line are the scan's first complete line and its mark, and the winner's own counter is the one that rose; a terminal status stays; the index, the marks and the limiter settings are kept |
| Session.OneTallyPerGame | app/src/main/java/com/sesaras/tictactoe/BoardGame.kt:241-254 | over any sequence of moves the tallies rise by one if the game ends during it and by nothing otherwise; an ended game keeps its status |
| Session.ClearBoardStartsOpenGame | app/src/main/java/com/sesaras/tictactoe/BoardGame.kt:217-224 | after `clearBoard` the status query reports UNKNOWN and changes nothing |
| Session.LastCellDraws | app/src/main/java/com/sesaras/tictactoe/BoardGame.kt:217-250 | filling the last NONE cell of an open game without completing a line ends it in a draw, and the draw is tallied |
| Session.MoveWinsForMover | app/src/main/java/com/sesaras/tictactoe/BoardGame.kt:288-297 | a move on an open board with no complete line that ends the game in a win is a win for the mover, and a computer move raises `gamesComputer` |
| Session.EmptyAmong | app/src/main/java/com/sesaras/tictactoe/BoardGame.kt:401-407 | the candidates are exactly the NONE cells among those listed, in their order |
| Session.ScoredAmong | app/src/main/java/com/sesaras/tictactoe/BoardGame.kt:428-434 | the candidates are exactly the listed cells whose stored score equals the given score, in their order |
| Session.RandomMove | app/src/main/java/com/sesaras/tictactoe/BoardGame.kt:395-419 | the computer plays the drawn NONE cell; only that cell changes, the play is recorded and a game ending on it is tallied once; on an open game the status becomes WIN iff a line is complete and DRAW iff none is and the board is full, and a terminal status stays; no tally falls; a win records the scan's line and mark and raises the winner's own counter; the index, the marks and the limiter settings are kept |
| Session.RandomBestMove | app/src/main/java/com/sesaras/tictactoe/BoardGame.kt:422-448 | the computer plays the drawn cell whose stored score equals the best score; only that cell changes and the play is recorded; the status is refreshed and a game ending on it is tallied once; no tally falls; a win records the scan's line and mark and raises the winner's own counter; the index, the marks and the limiter settings are kept |
| Session.SetScore | app/src/main/java/com/sesaras/tictactoe/BoardGame.kt:364-365 | storing a score changes that cell's entry only |
| Session.ScoreRoot | app/src/main/java/com/sesaras/tictactoe/BoardGame.kt:354-378 | each root candidate stores the minimax score of the computer playing there, and every other cell stays UNKNOWN; the best score bounds every candidate's score, and some candidate attains it when there is one; the board handed back after the root apply/undo loop equals the board searched |
| Session.ScoreRootRow | app/src/main/java/com/sesaras/tictactoe/BoardGame.kt:355-377 | one pass of the column loop extends the scored region by one row and keeps the best score the maximum of the visited candidates |
| Session.ScoreRootCell | app/src/main/java/com/sesaras/tictactoe/BoardGame.kt:356-376 | place, search and reset restore the board, store the cell's score and keep the best score the maximum |
| Session.ChooseTop | app/src/main/java/com/sesaras/tictactoe/BoardGame.kt:427-442 | the drawn tied cell is a root candidate with the best score, and no cell of the board scores higher |
| Session.PlayBest | app/src/main/java/com/sesaras/tictactoe/BoardGame.kt:354-383 | the played cell is a NONE cell of the root region with the highest stored score; the stored scores are the root scores; only that cell changes on the board; the status is refreshed as by `makeMove` (WIN iff a line is complete, DRAW iff none is and the board is full) and a game ending on this move is tallied once; no tally falls; a win records the scan's line and mark and raises the winner's own counter; the index, the marks and the limiter settings are kept; on a board with no complete line before the move, a win is the computer's and raises `gamesComputer` |
| Session.PrepareSearch | app/src/main/java/com/sesaras/tictactoe/BoardGame.kt:332-346 | the session stays consistent; under `limitMaxDepth` the depth ceiling becomes the least depth whose node estimate exceeds the budget (or the plays left), otherwise it is kept; every score is cleared and nothing else changes |
| Session.BestMove | app/src/main/java/com/sesaras/tictactoe/BoardGame.kt:318-392 | the depth ceiling is recomputed under `limitMaxDepth` and kept otherwise. When the game is full or over, only the scores are cleared. Otherwise the computer plays a NONE cell of the region that reached the maximum root score, every candidate's stored score is its minimax score, non-candidates keep UNKNOWN, only that cell changes and the play is counted. The status after the move is WIN iff a line is complete and DRAW iff none is and the board is full, and the tallies rise by one exactly when the game ends, in exactly one counter. A win records the scan's first complete line and its mark and raises the winner's own counter, and when no line was complete before the move the winner is the computer. The index, the marks and the limiter settings are kept |

## Left out

- Console I/O: `configureGame` and `play`, which read from a `Scanner` and call `exitProcess`. Which mark the computer plays is a parameter of `Session.NewSession`.
- Display code: `showBoard`, `showScores`, and every `showDetails` and `println` branch. They print and change no state.
- Telemetry: the counters `iterations`, `maxDepthReached` and `progress`. They have no effect on any result.
- `suggestedMove`: it is written by `bestMove` but never read to choose the move.
- `candidateMove`: it is a scratch list. The model computes the candidate list as a value (`Session.EmptyAmong`, `Session.ScoredAmong`).
- `MainActivity.kt`: it is Android widget wiring around the engine and is not part of this model.
- The random number generator: the drawn index is a parameter. Uniformity of the draw is not modelled.
- Session.RandomMove: requires a non-empty candidate list. On a full board the source's guard `size >= 0` always passes and the draw from an empty range fails.
- Session.PlayBest: the promise that a win ending on the computer's move is the computer's holds under the stated condition that no line was complete before the move; `Session.Valid` does not carry "an open status means no complete line", so the condition is part of the ensures (the same holds for Session.BestMove).
- Session.BestMove: requires `numPlays < R·C` when `limitMaxDepth` is set, because with no plays left the source's depth loop keeps the product at 0 and stops only when the 32-bit play counter wraps back to 0, after 2^32 iterations, by which time the depth counter has also wrapped to 0, leaving `maxDepth` at 0; the model excludes that case by the precondition instead of modelling the wrap-around. It also requires a NONE cell in the root region of an open game; without one, the source's final draw is from an empty candidate list.
- Limiter.CalculateMaxDepth: does not model 32-bit `Int` overflow of the running product. Overflow cannot happen while the product stays within the budget, and the loop stops at the first product above it, so the model covers every board with at most 214 plays left.
- Grid.At: reads NONE outside the board instead of throwing. Every line of the index is proved to lie on the board, so the out-of-board case never arises.
- Minimax.MinMax: `evaluatedRow = -1` and `evaluatedCol = -1`, the default arguments, are not modelled. Every call in the source passes a board cell.
- The `Board`, `BoardCell`, `ListOfCells`, `ListOfLines` and `WinLinesByCell` classes are modelled as values (`Grid.Board`, `Grid.Cell`, `Lines.Line`, sequences of lines). Aliasing between them is modelled only where it matters, which is the shallow copy in `minMax`.

## Findings

| source | as written | input that shows it | evidently intended | confidence | as-written member | corrected member |
|---|---|---|---|---|---|---|
| app/src/main/java/com/sesaras/tictactoe/BoardGame.kt:199-205 | a line counts as complete when every adjacent pair of its cells is equal and non-NONE, checked by `for (c in 1 until ADJ_CELLS)`; the same test is at lines 617-630 | `ADJ_CELLS = 1` on any board whose cell (0,0) is NONE, e.g. after a first move anywhere else: the loop body never runs, so the first line of the index, [(0,0)], passes; the winner is taken from (0,0) and is NONE, and lines 246-249 count it as a human win | a line is complete when its cells all hold the same player's mark, so the winner is never NONE; for K >= 2 the two tests agree (Evaluation.AsWrittenAgreesFromTwoCells) | not executed | Evaluation.AsWrittenAcceptsEmptySingleCell | Evaluation.Scan |

=== FILE: evaluation.dfy ===
/**
  Status evaluation shared by `getBoardStatus` (every line of the index) and
  `evaluateCell` (only the lines through one cell): find the first complete
  line in index order; with none, the game is drawn when no NONE cell is left
  and undecided otherwise.
 */
module Evaluation {
  import opened Options
  import opened Grid
  import opened Lines
  import opened ReverseIndex

  /** `BoardStatus`, with its numeric score. */
  datatype Status = Win | Lose | Draw | Unknown {
    function Value(): int {
      match this
      case Win => 10
      case Lose => -10
      case Draw => 0
      case Unknown => -20
    }
  }

  /**
    A line is complete when its first cell holds a player's mark and every
    cell holds that same mark.
   */
  predicate Complete(b: Board, l: Line) {
    |l| >= 1 && At(b, l[0]) != Empty && forall i :: 0 <= i < |l| ==> At(b, l[i]) == At(b, l[0])
  }

  /**
    The completeness test as the source states it: every pair of neighbouring
    positions i-1, i of the line (1 <= i < K) holds equal marks, neither of
    them NONE.  With K = 1 there is no such pair, so a single NONE cell passes.
   */
  predicate CompleteAsWritten(b: Board, l: Line) {
    forall i :: 1 <= i < |l| ==> AdjacentMatch(b, l, i)
  }

  /** The test at position i: the marks at i-1 and i are equal and neither is NONE. */
  predicate AdjacentMatch(b: Board, l: Line, i: int)
    requires 1 <= i < |l|
  {
    At(b, l[i - 1]) == At(b, l[i]) && At(b, l[i]) != Empty && At(b, l[i - 1]) != Empty
  }

  lemma {:induction false} ChainEqual(b: Board, l: Line, n: nat)
    requires CompleteAsWritten(b, l) && n < |l|
    ensures At(b, l[n]) == At(b, l[0])
  {
    if n > 0 {
      ChainEqual(b, l, n - 1);
      assert AdjacentMatch(b, l, n);
    }
  }

  /** For runs of two or more cells the written test and `Complete` agree. */
  lemma AsWrittenAgreesFromTwoCells(b: Board, l: Line)
    requires |l| >= 2
    ensures CompleteAsWritten(b, l) <==> Complete(b, l)
  {
    if CompleteAsWritten(b, l) {
      forall i | 0 <= i < |l|
        ensures At(b, l[i]) == At(b, l[0])
      {
        ChainEqual(b, l, i);
      }
      assert AdjacentMatch(b, l, 1);
    }
    if Complete(b, l) {
      forall i | 1 <= i < |l|
        ensures AdjacentMatch(b, l, i)
      {
      }
    }
  }

  /** With K = 1 the written test accepts a line whose one cell is NONE. */
  lemma AsWrittenAcceptsEmptySingleCell()
    ensures CompleteAsWritten([[Empty]], [Cell(0, 0)])
    ensures !Complete([[Empty]], [Cell(0, 0)])
  {
  }

  /** Line `i` is complete and no earlier line is. */
  predicate IsFirstComplete(b: Board, lines: seq<Line>, i: int) {
    0 <= i < |lines| && Complete(b, lines[i]) && forall j :: 0 <= j < i ==> !Complete(b, lines[j])
  }

  /** The first complete line of `lines` in index order, if any: the scan stops at the first hit. */
  function FindLine(b: Board, lines: seq<Line>): (r: Option<Line>)
    ensures r.Some? ==> Complete(b, r.value) && exists i :: IsFirstComplete(b, lines, i) && lines[i] == r.value
    ensures r.None? <==> forall l :: l in lines ==> !Complete(b, l)
    decreases |lines|
  {
    if lines == [] then None
    else if Complete(b, lines[0]) then
      assert IsFirstComplete(b, lines, 0);
      Some(lines[0])
    else
      var r := FindLine(b, lines[1..]);
      if r.Some? then
        var i :| IsFirstComplete(b, lines[1..], i) && lines[1..][i] == r.value;
        assert IsFirstComplete(b, lines, i + 1);
        r
      else
        assert forall l :: l in lines ==> l == lines[0] || l in lines[1..];
        r
  }

  /** Outcome of a scan: a winner with its line, a draw, or an open game. */
  datatype Verdict = Won(winner: Mark, line: Line) | Drawn | Open

  /**
    The shared core of `getBoardStatus` and `evaluateCell`.  The winner is the
    mark on the first complete line, which every cell of that line holds.
   */
  function Scan(b: Board, lines: seq<Line>): (v: Verdict)
    ensures v.Won? ==> v.winner != Empty && Complete(b, v.line)
                       && (forall i :: 0 <= i < |v.line| ==> At(b, v.line[i]) == v.winner)
                       && exists i :: IsFirstComplete(b, lines, i) && lines[i] == v.line
    ensures v.Won? <==> exists l :: l in lines && Complete(b, l)
    ensures v.Drawn? <==> (forall l :: l in lines ==> !Complete(b, l)) && !HasEmpty(b)
    ensures v.Open? <==> (forall l :: l in lines ==> !Complete(b, l)) && HasEmpty(b)
  {
    match FindLine(b, lines)
    case Some(l) => Won(At(b, l[0]), l)
    case None => if HasEmpty(b) then Open else Drawn
  }

  /** A verdict seen from `player`'s side: its own line is WIN, the other mark's is LOSE. */
  function Relative(v: Verdict, player: Mark): (s: Status)
    ensures s == Win <==> v.Won? && v.winner == player
    ensures s == Lose <==> v.Won? && v.winner != player
    ensures s == Draw <==> v.Drawn?
    ensures s == Unknown <==> v.Open?
  {
    match v
    case Won(w, _) => if w == player then Win else Lose
    case Drawn => Draw
    case Open => Unknown
  }

  /**
    `evaluateCell`: the status from `player`'s side, looking only at the lines
    of the reverse index entry for `c`.
   */
  function EvaluateCell(byCell: seq<seq<seq<Line>>>, b: Board, player: Mark, c: Cell): (s: Status)
    requires 0 <= c.row < |byCell| && 0 <= c.col < |byCell[c.row]|
    ensures var ls := byCell[c.row][c.col];
            && (s == Win || s == Lose <==> exists l :: l in ls && Complete(b, l))
            && (s == Win ==> exists l :: l in ls && Complete(b, l) && At(b, l[0]) == player)
            && (s == Lose ==> exists l :: l in ls && Complete(b, l) && At(b, l[0]) != player)
            && (((exists l :: l in ls && Complete(b, l))
                 && (forall l :: l in ls && Complete(b, l) ==> At(b, l[0]) == player)) ==> s == Win)
            && (((exists l :: l in ls && Complete(b, l))
                 && (forall l :: l in ls && Complete(b, l) ==> At(b, l[0]) != player)) ==> s == Lose)
            && (s == Draw <==> (forall l :: l in ls ==> !Complete(b, l)) && !HasEmpty(b))
            && (s == Unknown <==> (forall l :: l in ls ==> !Complete(b, l)) && HasEmpty(b))
  {
    Relative(Scan(b, byCell[c.row][c.col]), player)
  }

  // ---------------------------------------------------------------- incremental vs full

  /**
    When every complete line passes through `c`, the first complete line
    among the lines through `c` is the first complete line overall.
   */
  lemma {:induction false} FindLineThrough(b: Board, lines: seq<Line>, c: Cell)
    requires forall l :: l in lines && Complete(b, l) ==> c in l
    ensures FindLine(b, LinesThrough(lines, c)) == FindLine(b, lines)
    decreases |lines|
  {
    if lines != [] {
      var rest := LinesThrough(lines[1..], c);
      assert forall l :: l in lines[1..] ==> l in lines;
      FindLineThrough(b, lines[1..], c);
      if c in lines[0] {
        assert LinesThrough(lines, c) == [lines[0]] + rest;
        assert ([lines[0]] + rest)[1..] == rest;
      } else {
        assert LinesThrough(lines, c) == rest;
        assert !Complete(b, lines[0]);
      }
    }
  }

  /** The restricted scan agrees with the full scan when every complete line passes through `c`. */
  lemma IncrementalAgreesWithFull(b: Board, lines: seq<Line>, c: Cell)
    requires forall l :: l in lines && Complete(b, l) ==> c in l
    ensures Scan(b, LinesThrough(lines, c)) == Scan(b, lines)
  {
    FindLineThrough(b, lines, c);
  }

  /** A move can only complete lines that pass through the cell it fills. */
  lemma MoveCompletesOnlyLinesThroughIt(b: Board, lines: seq<Line>, c: Cell, m: Mark)
    requires 0 <= c.row < |b| && 0 <= c.col < |b[c.row]|
    requires forall l :: l in lines ==> !Complete(b, l)
    ensures forall l :: l in lines && Complete(Put(b, c, m), l) ==> c in l
  {
    forall l | l in lines && c !in l
      ensures !Complete(Put(b, c, m), l)
    {
      UntouchedLine(b, l, c, m);
    }
  }

  /** A line that avoids `c` is complete after a move at `c` exactly when it was before. */
  lemma UntouchedLine(b: Board, l: Line, c: Cell, m: Mark)
    requires 0 <= c.row < |b| && 0 <= c.col < |b[c.row]|
    requires c !in l
    ensures Complete(Put(b, c, m), l) == Complete(b, l)
  {
    assert forall i :: 0 <= i < |l| ==> At(Put(b, c, m), l[i]) == At(b, l[i]);
  }

  /**
    Right after a move at `c` on a board with no complete line, `evaluateCell`
    at `c` reaches the same verdict as `getBoardStatus`'s full scan of the index.
   */
  lemma EvaluateCellAfterMove(d: Dims, byCell: seq<seq<seq<Line>>>, b: Board, c: Cell, m: Mark, player: Mark)
    requires d.Valid() && IsReverseIndex(d, WinningLines(d), byCell) && Shaped(d, b) && d.Contains(c)
    requires Scan(b, WinningLines(d)).Won? == false
    ensures EvaluateCell(byCell, Put(b, c, m), player, c) == Relative(Scan(Put(b, c, m), WinningLines(d)), player)
  {
    MoveCompletesOnlyLinesThroughIt(b, WinningLines(d), c, m);
    IncrementalAgreesWithFull(Put(b, c, m), WinningLines(d), c);
  }
}

=== FILE: grid.dfy ===
/** A minimal optional value, used for "first line found" and "move chosen" results. */
module Options {
  datatype Option<+T> = None | Some(value: T)
}

/**
  Cell states, coordinates and the R×C board of the K-in-a-row engine
  (the `Board`, `BoardCell` classes and the `NONE`/`PLAYER_X`/`PLAYER_O`
  constants of BoardGame.kt).
 */
module Grid {

  /** State of one board cell: NONE (0), PLAYER_X (1) or PLAYER_O (2). */
  datatype Mark = Empty | X | O

  /** The other player's mark; `Empty` has no opponent. */
  function Opponent(m: Mark): Mark {
    match m
    case X => O
    case O => X
    case Empty => Empty
  }

  /** A board coordinate (row, col), 0-based. */
  datatype Cell = Cell(row: int, col: int)

  /** Board dimensions R×C and the run length K needed to win (`ADJ_CELLS`). */
  datatype Dims = Dims(rows: nat, cols: nat, k: nat) {
    /** K must fit the board: 1 <= K <= min(R, C). */
    predicate Valid() {
      1 <= k <= rows && k <= cols
    }

    predicate Contains(c: Cell) {
      0 <= c.row < rows && 0 <= c.col < cols
    }

    /** `MAX_PLAYS`: the number of cells on the board. */
    function MaxPlays(): nat {
      rows * cols
    }
  }

  type Board = seq<seq<Mark>>

  /** The board has R rows of C cells each. */
  predicate Shaped(d: Dims, b: Board) {
    |b| == d.rows && forall r :: 0 <= r < |b| ==> |b[r]| == d.cols
  }

  /** The mark at `c`; a coordinate outside the board reads as `Empty`. */
  function At(b: Board, c: Cell): Mark {
    if 0 <= c.row < |b| && 0 <= c.col < |b[c.row]| then b[c.row][c.col] else Empty
  }

  /** Writes mark `m` into exactly one cell of the board. */
  function Put(b: Board, c: Cell, m: Mark): (b': Board)
    requires 0 <= c.row < |b| && 0 <= c.col < |b[c.row]|
    ensures |b'| == |b| && forall r :: 0 <= r < |b| ==> |b'[r]| == |b[r]|
    ensures At(b', c) == m
    ensures forall e :: e != c ==> At(b', e) == At(b, e)
  {
    b[c.row := b[c.row][c.col := m]]
  }

  /** A fresh R×C board with every cell NONE. */
  function EmptyBoard(d: Dims): (b: Board)
    ensures Shaped(d, b)
    ensures forall c :: At(b, c) == Empty
  {
    seq(d.rows, _ => seq(d.cols, _ => Empty))
  }

  /** Some row still contains a NONE cell (the row-by-row emptiness test of the status check). */
  predicate HasEmpty(b: Board) {
    exists r :: 0 <= r < |b| && Empty in b[r]
  }

  /** A board whose every cell holds a mark has no NONE cell left. */
  lemma NoEmptyCell(d: Dims, b: Board)
    requires Shaped(d, b)
    requires forall e :: d.Contains(e) ==> At(b, e) != Empty
    ensures !HasEmpty(b)
  {
    forall r | 0 <= r < |b|
      ensures Empty !in b[r]
    {
      forall j | 0 <= j < |b[r]|
        ensures b[r][j] != Empty
      {
        assert At(b, Cell(r, j)) == b[r][j];
      }
    }
  }

  /** Number of NONE cells in the first `n` rows. */
  function EmptyCountUpTo(b: Board, n: nat): nat
    requires n <= |b|
  {
    if n == 0 then 0 else EmptyCountUpTo(b, n - 1) + multiset(b[n - 1])[Empty]
  }

  /** Number of NONE cells on the board: the measure that minimax recursion decreases. */
  function EmptyCount(b: Board): nat {
    EmptyCountUpTo(b, |b|)
  }

  /** Filling an empty cell with a player's mark removes exactly one NONE cell. */
  lemma {:induction false} PutFillsOneCell(b: Board, c: Cell, m: Mark)
    requires 0 <= c.row < |b| && 0 <= c.col < |b[c.row]|
    requires At(b, c) == Empty && m != Empty
    ensures EmptyCount(Put(b, c, m)) + 1 == EmptyCount(b)
  {
    PutFillsOneCellUpTo(b, c, m, |b|);
  }

  lemma {:induction false} PutFillsOneCellUpTo(b: Board, c: Cell, m: Mark, n: nat)
    requires 0 <= c.row < |b| && 0 <= c.col < |b[c.row]|
    requires At(b, c) == Empty && m != Empty
    requires n <= |b|
    ensures EmptyCountUpTo(Put(b, c, m), n) + (if c.row < n then 1 else 0) == EmptyCountUpTo(b, n)
  {
    var b' := Put(b, c, m);
    if n > 0 {
      PutFillsOneCellUpTo(b, c, m, n - 1);
      if n - 1 == c.row {
        assert b'[n - 1] == b[n - 1][c.col := m];
        assert b[n - 1][c.col] == Empty;
        assert multiset(b'[n - 1]) == multiset(b[n - 1]) - multiset{Empty} + multiset{m};
      } else {
        assert b'[n - 1] == b[n - 1];
      }
    }
  }

  /** Writing NONE back over a cell that was NONE restores the board exactly (the undo step). */
  lemma UndoRestores(b: Board, c: Cell, m: Mark)
    requires 0 <= c.row < |b| && 0 <= c.col < |b[c.row]|
    requires At(b, c) == Empty
    ensures Put(Put(b, c, m), c, Empty) == b
  {
    assert Put(Put(b, c, m), c, Empty)[c.row] == b[c.row];
  }

  /** `a` comes strictly before `b` in row-major order. */
  predicate Before(a: Cell, b: Cell) {
    a.row < b.row || (a.row == b.row && a.col < b.col)
  }

  /**
    The cells from (r, col) onwards in row-major order: row by row from top
    to bottom, each row from left to right, the order of the search loops.
   */
  function CellsFrom(d: Dims, r: int, col: int): (cs: seq<Cell>)
    requires 0 <= r && 0 <= col
    ensures forall e :: e in cs <==> d.Contains(e) && (e.row > r || (e.row == r && e.col >= col))
    ensures forall i, j :: 0 <= i < j < |cs| ==> Before(cs[i], cs[j])
    decreases d.rows - r, d.cols - col
  {
    if r >= d.rows then []
    else if col >= d.cols then CellsFrom(d, r + 1, 0)
    else [Cell(r, col)] + CellsFrom(d, r, col + 1)
  }

  /** Every cell of the board, once each, in row-major order. */
  function AllCells(d: Dims): (cs: seq<Cell>)
    ensures forall e :: e in cs <==> d.Contains(e)
    ensures forall i, j :: 0 <= i < j < |cs| ==> Before(cs[i], cs[j])
  {
    CellsFrom(d, 0, 0)
  }
}

=== FILE: limiter.dfy ===
/**
  The search limiter: the depth ceiling derived from a node-count budget
  (`calculateMaxDepth`) and the root region around the last move
  (`AnalysisRatio` clipping in `bestMove`).
 */
module Limiter {
  import opened Grid

  /** `NUM_MAX_I`: the node-count budget. */
  const IterationBudget: int := 10000000

  /** p·(p-1)·…·(p-d): the estimated node count of a search d plies past the root. */
  function Falling(p: int, d: nat): int {
    if d == 0 then p else Falling(p, d - 1) * (p - d)
  }

  /**
    `depth` is the ceiling `calculateMaxDepth` settles on for `p` plays left:
    the first depth whose estimate exceeds the budget, or `p` when none does.
   */
  predicate IsDepthCeiling(p: int, depth: int) {
    && 1 <= depth <= p
    && (Falling(p, depth) > IterationBudget || depth == p)
    && forall e :: 1 <= e < depth ==> Falling(p, e) <= IterationBudget
  }

  /**
    `calculateMaxDepth`: the smallest depth d >= 1 at which the estimate
    p·(p-1)·…·(p-d) exceeds the budget or no cell is left (p - d = 0).
    With no play left the source's loop only ends once its 32-bit counters
    wrap around (leaving depth 0); the precondition excludes that case.
   */
  method CalculateMaxDepth(playsLeft: int) returns (depth: int)
    requires playsLeft >= 1
    ensures 1 <= depth <= playsLeft
    ensures Falling(playsLeft, depth) > IterationBudget || depth == playsLeft
    ensures forall e :: 1 <= e < depth ==> Falling(playsLeft, e) <= IterationBudget
  {
    var left := playsLeft;
    depth := 0;
    var total := playsLeft;
    while true
      invariant 0 <= depth < playsLeft
      invariant left == playsLeft - depth
      invariant total == Falling(playsLeft, depth)
      invariant forall e :: 1 <= e <= depth ==> Falling(playsLeft, e) <= IterationBudget
      decreases left
    {
      depth := depth + 1;
      left := left - 1;
      total := total * left;
      if total > IterationBudget || left == 0 {
        break;
      }
    }
  }

  /** The falling product is positive while every factor is. */
  lemma {:induction false} FallingPositive(p: int, d: nat)
    requires d < p
    ensures Falling(p, d) > 0
  {
    if d > 0 {
      FallingPositive(p, d - 1);
      MulPositive(Falling(p, d - 1), p - d);
    }
  }

  lemma MulPositive(x: int, y: int)
    requires x > 0 && y >= 1
    ensures x * y >= x && x * y > 0
  {
  }

  /** The falling product never shrinks while its factors stay positive. */
  lemma {:induction false} FallingGrows(p: int, d: nat, e: nat)
    requires d <= e < p
    ensures 0 < Falling(p, d) <= Falling(p, e)
    decreases e - d
  {
    FallingPositive(p, d);
    if d < e {
      FallingGrows(p, d, e - 1);
      MulPositive(Falling(p, e - 1), p - e);
    }
  }

  /** 9! = 362 880 is below the budget. */
  lemma NineFactorialFitsBudget(p: int)
    requires 1 <= p <= 9
    ensures Falling(p, p - 1) <= IterationBudget
  {
    assert Falling(1, 0) == 1;
    assert Falling(2, 1) == 2;
    assert Falling(3, 2) == 6;
    assert Falling(4, 3) == 24;
    assert Falling(5, 4) == 120;
    assert Falling(6, 5) == 720;
    assert Falling(7, 6) == 5040;
    assert Falling(8, 7) == 40320;
    assert Falling(9, 8) == 362880;
  }

  /**
    On a board of at most nine cells (the 3×3 game) the ceiling never cuts
    the search short: any depth `CalculateMaxDepth` may return equals the
    number of plays left.
   */
  lemma SmallBoardSearchesToTheEnd(p: int, depth: int)
    requires 1 <= p <= 9 && 1 <= depth <= p
    requires Falling(p, depth) > IterationBudget || depth == p
    ensures depth == p
  {
    if depth < p {
      FallingGrows(p, depth, p - 1);
      NineFactorialFitsBudget(p);
    }
  }

  /** The half-open rectangle [rowLo, rowHi) × [colLo, colHi) of root candidates. */
  datatype Region = Region(rowLo: int, rowHi: int, colLo: int, colHi: int) {
    predicate Contains(c: Cell) {
      rowLo <= c.row < rowHi && colLo <= c.col < colHi
    }
  }

  /** Chebyshev distance at most `ratio` between two cells. */
  predicate Near(a: Cell, b: Cell, ratio: int) {
    -ratio <= a.row - b.row <= ratio && -ratio <= a.col - b.col <= ratio
  }

  /**
    The root loop bounds of `bestMove`: the whole board, or, with
    `limitAnalysis`, the cells within `ratio` of the last move, clipped to
    the board: lower bounds raised to 0, upper bounds lowered to R or C.
   */
  function RootRegion(d: Dims, limit: bool, last: Cell, ratio: int): (g: Region)
    ensures 0 <= g.rowLo && g.rowHi <= d.rows && 0 <= g.colLo && g.colHi <= d.cols
    ensures forall c :: g.Contains(c) <==> d.Contains(c) && (limit ==> Near(c, last, ratio))
  {
    if limit then
      Region(
        if last.row - ratio > 0 then last.row - ratio else 0,
        if last.row + ratio + 1 < d.rows then last.row + ratio + 1 else d.rows,
        if last.col - ratio > 0 then last.col - ratio else 0,
        if last.col + ratio + 1 < d.cols then last.col + ratio + 1 else d.cols)
    else
      Region(0, d.rows, 0, d.cols)
  }
}

=== FILE: lines.dfy ===
/**
  The winning-line index (`initWinningLines`, first half): every run of K
  consecutive cells, generated anchor by anchor.  For each K×K block anchored
  at (y, x) with 0 <= y <= R-K and 0 <= x <= C-K, in row-major anchor order,
  the builder emits K horizontal lines, K vertical lines, the "\" diagonal and
  the "/" diagonal.
 */
module Lines {
  import opened Grid

  /** An ordered sequence of cells (`ListOfCells`). */
  type Line = seq<Cell>

  /** The four directions a run can take. */
  datatype Direction = Right | Down | DownRight | DownLeft

  /** The cell `i` steps from `start` along `dir`. */
  function Offset(start: Cell, dir: Direction, i: int): Cell {
    match dir
    case Right => Cell(start.row, start.col + i)
    case Down => Cell(start.row + i, start.col)
    case DownRight => Cell(start.row + i, start.col + i)
    case DownLeft => Cell(start.row + i, start.col - i)
  }

  /** The k cells starting at `start` along `dir`. */
  function Run(start: Cell, dir: Direction, k: nat): Line {
    seq(k, i => Offset(start, dir, i))
  }

  /** A run of K cells along `dir` from `start` lies inside the board. */
  predicate RunFits(d: Dims, start: Cell, dir: Direction) {
    d.Contains(start) && d.Contains(Offset(start, dir, d.k - 1))
  }

  /** `l` is K consecutive in-grid cells along one of the four directions. */
  ghost predicate IsWinningRun(d: Dims, l: Line) {
    exists start, dir :: RunFits(d, start, dir) && l == Run(start, dir, d.k)
  }

  /** Number of lines one anchor contributes: K + K + 2. */
  function PerAnchor(k: nat): nat {
    2 * k + 2
  }

  /** The lines emitted for the K×K block anchored at (y, x), in the builder's order. */
  function AnchorLines(k: nat, y: int, x: int): (ls: seq<Line>)
    ensures |ls| == PerAnchor(k)
  {
    seq(k, i => Run(Cell(y + i, x), Right, k))
    + seq(k, i => Run(Cell(y, x + i), Down, k))
    + [Run(Cell(y, x), DownRight, k), Run(Cell(y, x + k - 1), DownLeft, k)]
  }

  /** The lines of anchor row `y`, for anchor columns `x` to C-K in turn. */
  function RowOfAnchors(d: Dims, y: int, x: nat): seq<Line>
    decreases d.cols - d.k + 1 - x
  {
    if x > d.cols - d.k then [] else AnchorLines(d.k, y, x) + RowOfAnchors(d, y, x + 1)
  }

  /** The lines of anchor rows `y` to R-K in turn, each row of anchors left to right. */
  function AnchorRows(d: Dims, y: nat): seq<Line>
    decreases d.rows - d.k + 1 - y
  {
    if y > d.rows - d.k then [] else RowOfAnchors(d, y, 0) + AnchorRows(d, y + 1)
  }

  /** `winningLines`: the complete line index of an R×C board with run length K. */
  function WinningLines(d: Dims): seq<Line> {
    AnchorRows(d, 0)
  }

  /** Anchor columns 0..C-K and anchor rows 0..R-K. */
  function AnchorCols(d: Dims): nat
    requires d.Valid()
  {
    d.cols - d.k + 1
  }

  function AnchorRowCount(d: Dims): nat
    requires d.Valid()
  {
    d.rows - d.k + 1
  }

  // ---------------------------------------------------------------- size

  lemma {:induction false} RowOfAnchorsLength(d: Dims, y: int, x: nat)
    requires d.Valid() && x <= AnchorCols(d)
    ensures |RowOfAnchors(d, y, x)| == (AnchorCols(d) - x) * PerAnchor(d.k)
    decreases AnchorCols(d) - x
  {
    if x <= d.cols - d.k {
      RowOfAnchorsLength(d, y, x + 1);
      assert (AnchorCols(d) - x) * PerAnchor(d.k)
          == PerAnchor(d.k) + (AnchorCols(d) - (x + 1)) * PerAnchor(d.k);
    }
  }

  lemma {:induction false} AnchorRowsLength(d: Dims, y: nat)
    requires d.Valid() && y <= AnchorRowCount(d)
    ensures |AnchorRows(d, y)| == (AnchorRowCount(d) - y) * (AnchorCols(d) * PerAnchor(d.k))
    decreases AnchorRowCount(d) - y
  {
    if y <= d.rows - d.k {
      RowOfAnchorsLength(d, y, 0);
      AnchorRowsLength(d, y + 1);
      var w := AnchorCols(d) * PerAnchor(d.k);
      assert (AnchorRowCount(d) - y) * w == w + (AnchorRowCount(d) - (y + 1)) * w;
    }
  }

  /** The index holds exactly (R-K+1)·(C-K+1)·(2K+2) lines. */
  lemma WinningLinesCount(d: Dims)
    requires d.Valid()
    ensures |WinningLines(d)| == (d.rows - d.k + 1) * (d.cols - d.k + 1) * (2 * d.k + 2)
  {
    AnchorRowsLength(d, 0);
    assert AnchorRowCount(d) * (AnchorCols(d) * PerAnchor(d.k))
        == (d.rows - d.k + 1) * (d.cols - d.k + 1) * (2 * d.k + 2);
  }

  /** On the classic 3×3 board with K = 3 there are the 8 familiar lines. */
  lemma ClassicBoardHasEightLines()
    ensures |WinningLines(Dims(3, 3, 3))| == 8
  {
    WinningLinesCount(Dims(3, 3, 3));
  }

  // ---------------------------------------------------------------- order

  /** n·p written as repeated addition, so the position lemmas below stay linear. */
  function Stride(n: nat, p: nat): nat {
    if n == 0 then 0 else p + Stride(n - 1, p)
  }

  lemma {:induction false} StrideIsProduct(n: nat, p: nat)
    ensures Stride(n, p) == n * p
  {
    if n > 0 {
      StrideIsProduct(n - 1, p);
      assert n * p == p + (n - 1) * p;
    }
  }

  /** Line `j` of anchor (y, x) sits at position Stride(x - x0, 2K+2) + j of the anchor row from x0. */
  lemma {:induction false} RowOfAnchorsAt(d: Dims, y: int, x0: nat, x: nat, j: nat)
    requires d.Valid() && x0 <= x <= d.cols - d.k && j < PerAnchor(d.k)
    ensures Stride(x - x0, PerAnchor(d.k)) + j < |RowOfAnchors(d, y, x0)|
    ensures RowOfAnchors(d, y, x0)[Stride(x - x0, PerAnchor(d.k)) + j] == AnchorLines(d.k, y, x)[j]
    decreases x - x0
  {
    var a := AnchorLines(d.k, y, x0);
    var rest := RowOfAnchors(d, y, x0 + 1);
    assert RowOfAnchors(d, y, x0) == a + rest;
    if x > x0 {
      RowOfAnchorsAt(d, y, x0 + 1, x, j);
      var inner := Stride(x - (x0 + 1), PerAnchor(d.k)) + j;
      assert Stride(x - x0, PerAnchor(d.k)) + j == |a| + inner;
      assert (a + rest)[|a| + inner] == rest[inner];
    }
  }

  /**
    Line `j` of anchor (y, x) sits at position Stride(y - y0, L) + Stride(x, 2K+2) + j
    of the anchor rows from y0, where L = (C-K+1)·(2K+2) is the length of one anchor row.
   */
  lemma {:induction false} AnchorRowsAt(d: Dims, y0: nat, y: nat, x: nat, j: nat)
    requires d.Valid() && y0 <= y <= d.rows - d.k && x <= d.cols - d.k && j < PerAnchor(d.k)
    ensures var pos := Stride(y - y0, AnchorCols(d) * PerAnchor(d.k)) + Stride(x, PerAnchor(d.k)) + j;
            pos < |AnchorRows(d, y0)| && AnchorRows(d, y0)[pos] == AnchorLines(d.k, y, x)[j]
    decreases y - y0
  {
    var row := RowOfAnchors(d, y0, 0);
    var rest := AnchorRows(d, y0 + 1);
    assert AnchorRows(d, y0) == row + rest;
    RowOfAnchorsAt(d, y0, 0, x, j);
    if y > y0 {
      AnchorRowsAt(d, y0 + 1, y, x, j);
      RowOfAnchorsLength(d, y0, 0);
      var inner := Stride(y - (y0 + 1), |row|) + Stride(x, PerAnchor(d.k)) + j;
      assert (row + rest)[|row| + inner] == rest[inner];
    }
  }

  /** The anchor (y, x) starts at ((y·(C-K+1)) + x)·(2K+2). */
  lemma AnchorBase(w: nat, p: nat, y: nat, x: nat)
    ensures Stride(y, w * p) + Stride(x, p) == (y * w + x) * p
  {
    StrideIsProduct(y, w * p);
    StrideIsProduct(x, p);
    assert y * (w * p) == (y * w) * p;
  }

  /** Where the lines of anchor (y, x) start in the index: (y·(C-K+1) + x)·(2K+2). */
  function AnchorStart(d: Dims, y: nat, x: nat): nat
    requires d.Valid()
  {
    (y * AnchorCols(d) + x) * PerAnchor(d.k)
  }

  /** Line `j` of anchor (y, x) is at position AnchorStart(d, y, x) + j of the index. */
  lemma IndexAt(d: Dims, y: nat, x: nat, j: nat)
    requires d.Valid() && y <= d.rows - d.k && x <= d.cols - d.k && j < PerAnchor(d.k)
    ensures AnchorStart(d, y, x) + j < |WinningLines(d)|
    ensures WinningLines(d)[AnchorStart(d, y, x) + j] == AnchorLines(d.k, y, x)[j]
  {
    AnchorBase(AnchorCols(d), PerAnchor(d.k), y, x);
    AnchorRowsAt(d, 0, y, x, j);
  }

  /**
    The fixed order of the index: anchors in row-major order, and within an
    anchor the K horizontals (top to bottom), the K verticals (left to right),
    then "\" and "/".
   */
  lemma WinningLinesOrder(d: Dims, y: nat, x: nat, i: nat)
    requires d.Valid() && y <= d.rows - d.k && x <= d.cols - d.k && i < d.k
    ensures var base := AnchorStart(d, y, x);
            && base + 2 * d.k + 1 < |WinningLines(d)|
            && WinningLines(d)[base + i] == Run(Cell(y + i, x), Right, d.k)
            && WinningLines(d)[base + d.k + i] == Run(Cell(y, x + i), Down, d.k)
            && WinningLines(d)[base + 2 * d.k] == Run(Cell(y, x), DownRight, d.k)
            && WinningLines(d)[base + 2 * d.k + 1] == Run(Cell(y, x + d.k - 1), DownLeft, d.k)
  {
    var a := AnchorLines(d.k, y, x);
    IndexAt(d, y, x, i);
    IndexAt(d, y, x, d.k + i);
    IndexAt(d, y, x, 2 * d.k);
    IndexAt(d, y, x, 2 * d.k + 1);
    assert a[i] == Run(Cell(y + i, x), Right, d.k);
    assert a[d.k + i] == Run(Cell(y, x + i), Down, d.k);
  }

  // ---------------------------------------------------------------- shape

  /** The cells of a fitting run are in the grid and pairwise distinct. */
  lemma RunCells(d: Dims, start: Cell, dir: Direction)
    requires RunFits(d, start, dir)
    ensures forall i :: 0 <= i < d.k ==> d.Contains(Run(start, dir, d.k)[i])
    ensures forall i, j :: 0 <= i < j < d.k ==> Run(start, dir, d.k)[i] != Run(start, dir, d.k)[j]
  {
  }

  /** Every line of one in-grid anchor is a fitting run. */
  lemma AnchorLinesAreRuns(d: Dims, y: int, x: int)
    requires d.Valid() && 0 <= y <= d.rows - d.k && 0 <= x <= d.cols - d.k
    ensures forall l :: l in AnchorLines(d.k, y, x) ==> IsWinningRun(d, l)
  {
    var a := AnchorLines(d.k, y, x);
    forall l | l in a
      ensures IsWinningRun(d, l)
    {
      var n :| 0 <= n < |a| && a[n] == l;
      if n < d.k {
        assert RunFits(d, Cell(y + n, x), Right) && l == Run(Cell(y + n, x), Right, d.k);
      } else if n < 2 * d.k {
        assert RunFits(d, Cell(y, x + (n - d.k)), Down) && l == Run(Cell(y, x + (n - d.k)), Down, d.k);
      } else if n == 2 * d.k {
        assert RunFits(d, Cell(y, x), DownRight) && l == Run(Cell(y, x), DownRight, d.k);
      } else {
        assert RunFits(d, Cell(y, x + d.k - 1), DownLeft) && l == Run(Cell(y, x + d.k - 1), DownLeft, d.k);
      }
    }
  }

  lemma {:induction false} RowOfAnchorsAreRuns(d: Dims, y: int, x: nat)
    requires d.Valid() && 0 <= y <= d.rows - d.k
    ensures forall l :: l in RowOfAnchors(d, y, x) ==> IsWinningRun(d, l)
    decreases d.cols - d.k + 1 - x
  {
    if x <= d.cols - d.k {
      AnchorLinesAreRuns(d, y, x);
      RowOfAnchorsAreRuns(d, y, x + 1);
    }
  }

  lemma {:induction false} AnchorRowsAreRuns(d: Dims, y: nat)
    requires d.Valid()
    ensures forall l :: l in AnchorRows(d, y) ==> IsWinningRun(d, l)
    decreases d.rows - d.k + 1 - y
  {
    if y <= d.rows - d.k {
      RowOfAnchorsAreRuns(d, y, 0);
      AnchorRowsAreRuns(d, y + 1);
    }
  }

  /**
    Every line of the index is K distinct in-grid cells, consecutive
    horizontally, vertically or along one of the diagonals.
   */
  lemma WinningLinesShape(d: Dims)
    requires d.Valid()
    ensures forall l :: l in WinningLines(d) ==> IsWinningRun(d, l)
    ensures forall l :: l in WinningLines(d) ==>
              |l| == d.k
              && (forall i :: 0 <= i < |l| ==> d.Contains(l[i]))
              && (forall i, j :: 0 <= i < j < |l| ==> l[i] != l[j])
  {
    AnchorRowsAreRuns(d, 0);
    forall l | l in WinningLines(d)
      ensures |l| == d.k
      ensures forall i :: 0 <= i < |l| ==> d.Contains(l[i])
      ensures forall i, j :: 0 <= i < j < |l| ==> l[i] != l[j]
    {
      var start, dir :| RunFits(d, start, dir) && l == Run(start, dir, d.k);
      RunCells(d, start, dir);
    }
  }

  // ---------------------------------------------------------------- completeness

  lemma {:induction false} InRowOfAnchors(d: Dims, y: int, x0: nat, x: nat, l: Line)
    requires x0 <= x <= d.cols - d.k && l in AnchorLines(d.k, y, x)
    ensures l in RowOfAnchors(d, y, x0)
    decreases x - x0
  {
    if x > x0 {
      InRowOfAnchors(d, y, x0 + 1, x, l);
    }
  }

  lemma {:induction false} InAnchorRows(d: Dims, y0: nat, y: nat, l: Line)
    requires y0 <= y <= d.rows - d.k && l in RowOfAnchors(d, y, 0)
    ensures l in AnchorRows(d, y0)
    decreases y - y0
  {
    if y > y0 {
      InAnchorRows(d, y0 + 1, y, l);
    }
  }

  /** The index is complete: every run of K in-grid cells appears in it. */
  lemma WinningLinesComplete(d: Dims, start: Cell, dir: Direction)
    requires d.Valid() && RunFits(d, start, dir)
    ensures Run(start, dir, d.k) in WinningLines(d)
  {
    var k := d.k;
    var l := Run(start, dir, k);
    var y: nat, x: nat, n: nat;
    match dir {
      case Right =>
        y := if start.row <= d.rows - k then start.row else d.rows - k;
        x := start.col;
        n := start.row - y;
        assert AnchorLines(k, y, x)[n] == Run(Cell(y + n, x), Right, k);
      case Down =>
        y := start.row;
        x := if start.col <= d.cols - k then start.col else d.cols - k;
        n := k + (start.col - x);
        assert AnchorLines(k, y, x)[n] == Run(Cell(y, x + (n - k)), Down, k);
      case DownRight =>
        y, x, n := start.row, start.col, 2 * k;
      case DownLeft =>
        y, x, n := start.row, start.col - k + 1, 2 * k + 1;
    }
    assert AnchorLines(k, y, x)[n] == l;
    InRowOfAnchors(d, y, 0, x, l);
    InAnchorRows(d, 0, y, l);
  }
}

=== FILE: minimax.dfy ===
/**
  The search engine (`minMax`): plain minimax without pruning.  At each node
  the engine first checks the depth ceiling, then evaluates the lines through
  the last cell played from the computer's side, and otherwise tries every
  NONE cell of the whole board in row-major order for the side to move.
 */
module Minimax {
  import opened Grid
  import opened Lines
  import opened ReverseIndex
  import opened Evaluation

  /** What one search needs from the session: the reverse index, the two marks and the depth ceiling. */
  datatype Engine = Engine(d: Dims, byCell: seq<seq<seq<Line>>>, computer: Mark, human: Mark, maxDepth: int) {
    predicate Valid() {
      && |byCell| == d.rows
      && (forall r :: 0 <= r < d.rows ==> |byCell[r]| == d.cols)
      && computer != Empty && human != Empty
    }
  }

  /** `DEFAULT_SCORE`: what a node past the depth ceiling scores (the LOSE value). */
  const DefaultScore: int := Lose.Value()

  /** The scores a search can produce: LOSE, DRAW or WIN. */
  predicate IsScore(v: int) {
    v == Lose.Value() || v == Draw.Value() || v == Win.Value()
  }

  function Max(a: int, b: int): int { if a >= b then a else b }

  function Min(a: int, b: int): int { if a <= b then a else b }

  /**
    The score of the position `b`, reached by a move at `last`, with the
    maximizing side (the computer) to move when `isMax`.
   */
  function MinMax(e: Engine, b: Board, depth: int, isMax: bool, last: Cell): (score: int)
    requires e.Valid() && Shaped(e.d, b) && e.d.Contains(last)
    ensures IsScore(score)
    ensures depth > e.maxDepth ==> score == Lose.Value()
    decreases EmptyCount(b), 2
  {
    if depth > e.maxDepth then DefaultScore
    else
      var eval := EvaluateCell(e.byCell, b, e.computer, last);
      if eval != Unknown then eval.Value()
      else
        var r := Explore(e, b, depth, isMax, AllCells(e.d), Lose.Value(), Win.Value());
        if isMax then r.0 else r.1
  }

  /**
    The move loop of one node over `cells`: `best` keeps the maximum and
    `worst` the minimum of the scores seen so far.
   */
  function Explore(e: Engine, b: Board, depth: int, isMax: bool, cells: seq<Cell>, best: int, worst: int): (r: (int, int))
    requires e.Valid() && Shaped(e.d, b)
    requires forall c :: c in cells ==> e.d.Contains(c)
    requires IsScore(best) && IsScore(worst)
    ensures IsScore(r.0) && IsScore(r.1)
    ensures r.0 >= best && r.1 <= worst
    decreases EmptyCount(b), 1, |cells|
  {
    if cells == [] then (best, worst)
    else
      assert cells[0] in cells;
      var next := Step(e, b, depth, isMax, cells[0], best, worst);
      Explore(e, b, depth, isMax, cells[1..], next.0, next.1)
  }

  /**
    One iteration of the move loop: a NONE cell is filled with the mover's
    mark and scored one level deeper; an occupied cell leaves both bounds.
   */
  function Step(e: Engine, b: Board, depth: int, isMax: bool, c: Cell, best: int, worst: int): (r: (int, int))
    requires e.Valid() && Shaped(e.d, b) && e.d.Contains(c)
    requires IsScore(best) && IsScore(worst)
    ensures IsScore(r.0) && IsScore(r.1)
    ensures r.0 >= best && r.1 <= worst
    decreases EmptyCount(b), 0
  {
    assert |b[c.row]| == e.d.cols;
    if At(b, c) == Empty then
      var mark := if isMax then e.computer else e.human;
      PutFillsOneCell(b, c, mark);
      var score := MinMax(e, Put(b, c, mark), depth + 1, !isMax, c);
      (Max(score, best), Min(score, worst))
    else
      (best, worst)
  }

  /**
    `minMax` as the source runs it: the board copy made at each level shares
    its rows with the caller's board, so every level writes into the caller's rows.
    The board is therefore threaded through: each recursive call hands back
    the board it leaves behind, and the caller carries on from that board.
    The postconditions say the paired apply/undo restores the board on every
    exit and that the score is the one `MinMax` defines.
   */
  method Search(e: Engine, board: Board, depth: int, isMax: bool, last: Cell) returns (score: int, after: Board)
    requires e.Valid() && Shaped(e.d, board) && e.d.Contains(last)
    ensures after == board
    ensures score == MinMax(e, board, depth, isMax, last)
    decreases EmptyCount(board), 2
  {
    if depth > e.maxDepth {
      return DefaultScore, board;
    }
    var eval := EvaluateCell(e.byCell, board, e.computer, last);
    if eval != Unknown {
      return eval.Value(), board;
    }
    var best, worst;
    best, worst, after := SearchMoves(e, board, depth, isMax);
    score := if isMax then best else worst;
  }

  /** The nested row/column loops of one node, over the shared board. */
  method SearchMoves(e: Engine, board: Board, depth: int, isMax: bool) returns (best: int, worst: int, after: Board)
    requires e.Valid() && Shaped(e.d, board)
    ensures after == board
    ensures (best, worst) == Explore(e, board, depth, isMax, AllCells(e.d), Lose.Value(), Win.Value())
    decreases EmptyCount(board), 1
  {
    best, worst := Lose.Value(), Win.Value();
    after := board;
    var row := 0;
    while row < e.d.rows
      invariant 0 <= row <= e.d.rows
      invariant after == board
      invariant IsScore(best) && IsScore(worst)
      invariant Explore(e, board, depth, isMax, CellsFrom(e.d, row, 0), best, worst)
             == Explore(e, board, depth, isMax, AllCells(e.d), Lose.Value(), Win.Value())
    {
      best, worst, after := SearchRow(e, after, depth, isMax, row, best, worst);
      row := row + 1;
    }
  }

  /** The column loop for one row: carries the bounds from (row, 0) to (row + 1, 0). */
  method SearchRow(e: Engine, board: Board, depth: int, isMax: bool, row: nat, best: int, worst: int)
    returns (best': int, worst': int, after: Board)
    requires e.Valid() && Shaped(e.d, board) && row < e.d.rows
    requires IsScore(best) && IsScore(worst)
    ensures after == board
    ensures IsScore(best') && IsScore(worst')
    ensures Explore(e, board, depth, isMax, CellsFrom(e.d, row + 1, 0), best', worst')
         == Explore(e, board, depth, isMax, CellsFrom(e.d, row, 0), best, worst)
    decreases EmptyCount(board), 1, e.d.rows - row
  {
    best', worst', after := best, worst, board;
    var col := 0;
    while col < e.d.cols
      invariant 0 <= col <= e.d.cols
      invariant after == board
      invariant IsScore(best') && IsScore(worst')
      invariant Explore(e, board, depth, isMax, CellsFrom(e.d, row, col), best', worst')
             == Explore(e, board, depth, isMax, CellsFrom(e.d, row, 0), best, worst)
    {
      ExploreStep(e, board, depth, isMax, row, col, best', worst');
      best', worst', after := SearchCell(e, after, depth, isMax, Cell(row, col), best', worst');
      col := col + 1;
    }
    assert CellsFrom(e.d, row, e.d.cols) == CellsFrom(e.d, row + 1, 0);
  }

  /** Exploring from (row, col) is one `Step` at that cell followed by exploring from (row, col + 1). */
  lemma ExploreStep(e: Engine, b: Board, depth: int, isMax: bool, row: nat, col: nat, best: int, worst: int)
    requires e.Valid() && Shaped(e.d, b) && row < e.d.rows && col < e.d.cols
    requires IsScore(best) && IsScore(worst)
    ensures var next := Step(e, b, depth, isMax, Cell(row, col), best, worst);
            Explore(e, b, depth, isMax, CellsFrom(e.d, row, col), best, worst)
            == Explore(e, b, depth, isMax, CellsFrom(e.d, row, col + 1), next.0, next.1)
  {
    var rest := CellsFrom(e.d, row, col + 1);
    assert CellsFrom(e.d, row, col) == [Cell(row, col)] + rest;
    assert ([Cell(row, col)] + rest)[1..] == rest;
  }

  /** One cell of the loops: apply the mover's mark, recurse, undo. */
  method SearchCell(e: Engine, board: Board, depth: int, isMax: bool, c: Cell, best: int, worst: int)
    returns (best': int, worst': int, after: Board)
    requires e.Valid() && Shaped(e.d, board) && e.d.Contains(c)
    requires IsScore(best) && IsScore(worst)
    ensures after == board
    ensures (best', worst') == Step(e, board, depth, isMax, c, best, worst)
    decreases EmptyCount(board), 0
  {
    best', worst', after := best, worst, board;
    assert |board[c.row]| == e.d.cols;
    if board[c.row][c.col] == Empty {
      var mark := if isMax then e.computer else e.human;
      PutFillsOneCell(board, c, mark);
      UndoRestores(board, c, mark);
      var work := Put(board, c, mark);
      var s, shared := Search(e, work, depth + 1, !isMax, c);
      best', worst' := Max(s, best), Min(s, worst);
      after := Put(shared, c, Empty);
    }
  }

  /**
    A move that completes a line on a board that had none decides the node:
    the computer's own line scores WIN and the human's scores LOSE, at any
    depth within the ceiling.
   */
  lemma CompletingMoveDecides(e: Engine, b: Board, c: Cell, m: Mark, depth: int, isMax: bool)
    requires e.Valid() && IsReverseIndex(e.d, WinningLines(e.d), e.byCell)
    requires Shaped(e.d, b) && e.d.Contains(c) && m != Empty
    requires forall l :: l in WinningLines(e.d) ==> !Complete(b, l)
    requires exists l :: l in WinningLines(e.d) && c in l && Complete(Put(b, c, m), l)
    requires depth <= e.maxDepth
    ensures MinMax(e, Put(b, c, m), depth, isMax, c)
         == (if m == e.computer then Win.Value() else Lose.Value())
  {
    var lines := WinningLines(e.d);
    var b' := Put(b, c, m);
    var ls := e.byCell[c.row][c.col];
    assert ls == LinesThrough(lines, c);
    MoveCompletesOnlyLinesThroughIt(b, lines, c, m);
    forall l | l in ls && Complete(b', l)
      ensures At(b', l[0]) == m
    {
      var i :| 0 <= i < |l| && l[i] == c;
      assert At(b', l[i]) == m;
    }
    var l :| l in lines && c in l && Complete(b', l);
    assert l in ls;
  }
}

=== FILE: reverse_index.dfy ===
/**
  The reverse index (`initWinningLines`, second half, and `WinLinesByCell`):
  for every cell, the lines of the index that pass through it, kept in the
  index's order.
 */
module ReverseIndex {
  import opened Grid
  import opened Lines

  /** `a` is `b` with some elements dropped, the rest kept in their order. */
  ghost predicate IsSubsequence<T>(a: seq<T>, b: seq<T>)
    decreases |b|
  {
    a == [] || (b != [] && ((a[0] == b[0] && IsSubsequence(a[1..], b[1..])) || IsSubsequence(a, b[1..])))
  }

  /**
    The lines of `lines` that contain `c`, in index order: the scan over
    the line index that copies each line holding the cell.
    Its postconditions, with `LinesThroughMultiplicity`, determine the result
    uniquely: it is an order-preserving selection that keeps every
    occurrence of every line through `c` and nothing else.
   */
  function LinesThrough(lines: seq<Line>, c: Cell): (r: seq<Line>)
    ensures forall l :: l in r <==> l in lines && c in l
    ensures IsSubsequence(r, lines)
    decreases |lines|
  {
    if lines == [] then []
    else
      var rest := LinesThrough(lines[1..], c);
      assert lines == [lines[0]] + lines[1..];
      if c in lines[0] then
        assert ([lines[0]] + rest)[1..] == rest;
        [lines[0]] + rest
      else rest
  }

  /** Every line through `c` occurs in the selection as often as in `lines`, and no other line occurs. */
  lemma {:induction false} LinesThroughMultiplicity(lines: seq<Line>, c: Cell, l: Line)
    ensures multiset(LinesThrough(lines, c))[l] == if c in l then multiset(lines)[l] else 0
    decreases |lines|
  {
    if lines != [] {
      LinesThroughMultiplicity(lines[1..], c, l);
      assert lines == [lines[0]] + lines[1..];
    }
  }

  /** `byCell[r][c]` holds the lines of `lines` through (r, c) for every cell of the board. */
  ghost predicate IsReverseIndex(d: Dims, lines: seq<Line>, byCell: seq<seq<seq<Line>>>) {
    |byCell| == d.rows
    && (forall r :: 0 <= r < d.rows ==> |byCell[r]| == d.cols)
    && forall r, c :: 0 <= r < d.rows && 0 <= c < d.cols ==> byCell[r][c] == LinesThrough(lines, Cell(r, c))
  }

  /** The per-cell table built for every (row, col) of the board. */
  function BuildReverseIndex(d: Dims, lines: seq<Line>): (byCell: seq<seq<seq<Line>>>)
    ensures IsReverseIndex(d, lines, byCell)
    ensures forall r, c, l :: 0 <= r < d.rows && 0 <= c < d.cols ==>
              (l in byCell[r][c] <==> l in lines && Cell(r, c) in l)
  {
    seq(d.rows, r => seq(d.cols, c => LinesThrough(lines, Cell(r, c))))
  }

  /**
    On the index of any valid board, a line is listed for a cell iff it passes
    through that cell, and each cell's list has no more lines than the index.
   */
  lemma ReverseIndexMembership(d: Dims, byCell: seq<seq<seq<Line>>>, c: Cell, l: Line)
    requires d.Valid() && IsReverseIndex(d, WinningLines(d), byCell) && d.Contains(c)
    ensures l in byCell[c.row][c.col] <==> l in WinningLines(d) && c in l
    ensures |byCell[c.row][c.col]| <= |WinningLines(d)|
  {
    var r := byCell[c.row][c.col];
    assert r == LinesThrough(WinningLines(d), c);
    SubsequenceLength(r, WinningLines(d));
  }

  lemma {:induction false} SubsequenceLength<T>(a: seq<T>, b: seq<T>)
    requires IsSubsequence(a, b)
    ensures |a| <= |b|
    decreases |b|
  {
    if a != [] {
      if a[0] == b[0] && IsSubsequence(a[1..], b[1..]) {
        SubsequenceLength(a[1..], b[1..]);
      } else {
        SubsequenceLength(a, b[1..]);
      }
    }
  }
}

=== FILE: session.dfy ===
/**
  The game session (`BoardGame`'s fields and public operations): the main
  board, the score board of the last root search, the memoised status with
  its winner and winning line, the last move, the configuration and the
  win/draw tallies.
 */
module Session {
  import opened Options
  import opened Grid
  import opened Lines
  import opened ReverseIndex
  import opened Evaluation
  import opened Minimax
  import opened Limiter

  /** `maxDepth`'s value after a reset. */
  const InitialMaxDepth: int := 15

  /** A score board with one entry per cell. */
  predicate ScoresShaped(d: Dims, sc: seq<seq<int>>) {
    |sc| == d.rows && forall r :: 0 <= r < |sc| ==> |sc[r]| == d.cols
  }

  /** The score stored for `c`; a cell outside the board reads as "not evaluated". */
  function ScoreAt(sc: seq<seq<int>>, c: Cell): int {
    if 0 <= c.row < |sc| && 0 <= c.col < |sc[c.row]| then sc[c.row][c.col] else Unknown.Value()
  }

  /** `clearScores`: every cell marked "not evaluated" (the UNKNOWN value, -20). */
  function ClearedScores(d: Dims): (sc: seq<seq<int>>)
    ensures ScoresShaped(d, sc)
    ensures forall c :: ScoreAt(sc, c) == Unknown.Value()
  {
    seq(d.rows, _ => seq(d.cols, _ => Unknown.Value()))
  }

  datatype Session = Session(
    dims: Dims,
    lines: seq<Line>,              // winningLines
    byCell: seq<seq<seq<Line>>>,   // winLinesByCell
    board: Board,                  // mainBoard
    scoreBoard: seq<seq<int>>,
    winner: Mark,
    winnerLine: Line,
    lastMove: Cell,
    lastPlayer: Mark,
    lastStatus: Status,
    computer: Mark,                // computerPlayer
    human: Mark,                   // humanPlayer
    numPlays: int,
    maxDepth: int,
    limitMaxDepth: bool,
    limitAnalysis: bool,
    analysisRatio: int,            // AnalysisRatio
    gamesHuman: nat,
    gamesComputer: nat,
    draws: nat,
    gameEnd: bool)
  {
    /**
      The index is the one built for the board's dimensions, boards have the
      board's shape, the two players hold opposite marks, and `gameEnd` is
      set exactly when the memoised status is terminal (WIN or DRAW: the
      full scan never records LOSE).
     */
    ghost predicate Valid() {
      && dims.Valid()
      && lines == WinningLines(dims)
      && IsReverseIndex(dims, lines, byCell)
      && Shaped(dims, board)
      && ScoresShaped(dims, scoreBoard)
      && dims.Contains(lastMove)
      && computer != Empty && human == Opponent(computer)
      && lastStatus != Lose
      && (gameEnd <==> lastStatus != Unknown)
    }

    /** Games completed so far: wins of either side plus draws. */
    function Tallies(): nat {
      gamesHuman + gamesComputer + draws
    }

    /** The search configuration `minMax` reads from the session. */
    function SearchEngine(): Engine {
      Minimax.Engine(dims, byCell, computer, human, maxDepth)
    }
  }

  /**
    The constructor: build the line index, then `clearAll`.  The defaults are
    those of the field initialisers; the mark the computer plays (chosen by
    `configureGame` in the source) is a parameter.
   */
  function NewSession(d: Dims, computer: Mark): (s: Session)
    requires d.Valid() && computer != Empty
    ensures s.Valid()
    ensures forall c :: At(s.board, c) == Empty
    ensures s.lastStatus == Unknown && !s.gameEnd && s.numPlays == 0
    ensures s.Tallies() == 0
  {
    var lines := WinningLines(d);
    var initial := Session(
      d, lines, BuildReverseIndex(d, lines),
      EmptyBoard(d), ClearedScores(d),
      X, [], Cell(0, 0), X, Unknown,
      computer, Opponent(computer),
      0, InitialMaxDepth, false, false, d.k + 1,
      0, 0, 0, false);
    ClearAll(initial)
  }

  /**
    `clearBoard`: empty board, cleared scores, no plays, depth ceiling back
    to 15, game not ended, status UNKNOWN; the tallies and everything else
    are kept.
   */
  function ClearBoard(s: Session): (s': Session)
    requires s.Valid()
    ensures s'.Valid()
    ensures forall c :: At(s'.board, c) == Empty
    ensures forall c :: ScoreAt(s'.scoreBoard, c) == Unknown.Value()
    ensures s'.numPlays == 0 && s'.maxDepth == InitialMaxDepth && !s'.gameEnd && s'.lastStatus == Unknown
    ensures s'.gamesHuman == s.gamesHuman && s'.gamesComputer == s.gamesComputer && s'.draws == s.draws
    ensures s' == s.(board := s'.board, scoreBoard := s'.scoreBoard, numPlays := 0,
                     maxDepth := InitialMaxDepth, gameEnd := false, lastStatus := Unknown)
  {
    s.(board := EmptyBoard(s.dims), scoreBoard := ClearedScores(s.dims), numPlays := 0,
       maxDepth := InitialMaxDepth, gameEnd := false, lastStatus := Unknown)
  }

  /** `clearAll`: `clearBoard` and the three tallies back to zero. */
  function ClearAll(s: Session): (s': Session)
    requires s.Valid()
    ensures s'.Valid()
    ensures forall c :: At(s'.board, c) == Empty
    ensures s'.lastStatus == Unknown && !s'.gameEnd && s'.numPlays == 0
    ensures s'.gamesHuman == 0 && s'.gamesComputer == 0 && s'.draws == 0
    ensures forall c :: ScoreAt(s'.scoreBoard, c) == Unknown.Value()
    ensures s'.maxDepth == InitialMaxDepth
    ensures s' == s.(board := s'.board, scoreBoard := s'.scoreBoard, numPlays := 0,
                     maxDepth := InitialMaxDepth, gameEnd := false, lastStatus := Unknown,
                     gamesHuman := 0, gamesComputer := 0, draws := 0)
  {
    ClearBoard(s).(gamesHuman := 0, gamesComputer := 0, draws := 0)
  }

  /**
    `getBoardStatus`.  A terminal memoised status is returned with no side
    effect.  Otherwise the full scan decides: on a win the winner and its
    line (the first complete line of the index) are recorded, the winner's
    tally rises and the status becomes WIN whoever won; on a draw the draw
    tally rises; in both cases the game ends.  An open game changes nothing.
   */
  function GetBoardStatus(s: Session): (r: (Session, int))
    requires s.Valid()
    ensures r.0.Valid()
    ensures r.1 == r.0.lastStatus.Value()
    ensures s.lastStatus != Unknown ==> r.0 == s
    ensures r.0.board == s.board && r.0.scoreBoard == s.scoreBoard && r.0.lastMove == s.lastMove
         && r.0.lastPlayer == s.lastPlayer && r.0.numPlays == s.numPlays && r.0.maxDepth == s.maxDepth
         && r.0.dims == s.dims && r.0.computer == s.computer
    ensures r.0.Tallies() == s.Tallies() + (if s.lastStatus == Unknown && r.0.lastStatus != Unknown then 1 else 0)
    ensures TalliesKept(s, r.0)
    ensures s.lastStatus == Unknown ==>
              && (r.0.lastStatus == Win <==> exists l :: l in s.lines && Complete(s.board, l))
              && (r.0.lastStatus == Draw <==> (forall l :: l in s.lines ==> !Complete(s.board, l)) && !HasEmpty(s.board))
              && (r.0.lastStatus == Unknown ==> r.0 == s)
    ensures s.lastStatus == Unknown && r.0.lastStatus == Win ==>
              && r.0.winner != Empty
              && (exists i :: IsFirstComplete(s.board, s.lines, i) && s.lines[i] == r.0.winnerLine)
              && (forall i :: 0 <= i < |r.0.winnerLine| ==> At(s.board, r.0.winnerLine[i]) == r.0.winner)
              && (r.0.winner == s.computer ==> r.0.gamesComputer == s.gamesComputer + 1)
              && (r.0.winner != s.computer ==> r.0.gamesHuman == s.gamesHuman + 1)
    ensures s.lastStatus == Unknown && r.0.lastStatus == Draw ==> r.0.draws == s.draws + 1
  {
    if s.lastStatus != Unknown then (s, s.lastStatus.Value())
    else
      match Scan(s.board, s.lines)
      case Won(w, l) =>
        var s' := s.(winner := w, winnerLine := l, lastStatus := Win, gameEnd := true,
                     gamesComputer := if w == s.computer then s.gamesComputer + 1 else s.gamesComputer,
                     gamesHuman := if w == s.computer then s.gamesHuman else s.gamesHuman + 1);
        (s', Win.Value())
      case Drawn =>
        (s.(draws := s.draws + 1, lastStatus := Draw, gameEnd := true), Draw.Value())
      case Open =>
        (s, Unknown.Value())
  }

  /**
    `getBoardStatus` is idempotent: a second call straight after the first
    returns the same status and changes nothing (a terminal status is
    memoised, and an open game was left untouched).
   */
  lemma StatusIdempotent(s: Session)
    requires s.Valid()
    ensures GetBoardStatus(GetBoardStatus(s).0) == GetBoardStatus(s)
  {
    var r := GetBoardStatus(s);
    if r.0.lastStatus == Unknown {
      assert r.0 == s;
    }
  }

  /**
    `makeMove`: writes `player` into exactly one cell, records the move and
    the mover, counts the play, then refreshes the status.
   */
  function MakeMove(s: Session, c: Cell, player: Mark): (s': Session)
    requires s.Valid() && s.dims.Contains(c)
    ensures s'.Valid() && s'.dims == s.dims && s'.computer == s.computer
    ensures At(s'.board, c) == player
    ensures forall e :: e != c ==> At(s'.board, e) == At(s.board, e)
    ensures s'.lastMove == c && s'.lastPlayer == player && s'.numPlays == s.numPlays + 1
    ensures s'.scoreBoard == s.scoreBoard && s'.maxDepth == s.maxDepth
    ensures s'.Tallies() == s.Tallies() + (if s.lastStatus == Unknown && s'.lastStatus != Unknown then 1 else 0)
    ensures TalliesKept(s, s')
    ensures WinRecorded(s, s') && ConfigKept(s, s')
    ensures s.lastStatus != Unknown ==> s'.lastStatus == s.lastStatus
    ensures s.lastStatus == Unknown ==>
              && s'.board == Put(s.board, c, player)
              && (s'.lastStatus == Win <==> exists l :: l in s.lines && Complete(s'.board, l))
              && (s'.lastStatus == Draw <==> (forall l :: l in s.lines ==> !Complete(s'.board, l)) && !HasEmpty(s'.board))
              && (s'.lastStatus == Draw ==> s'.draws == s.draws + 1)
  {
    assert |s.board[c.row]| == s.dims.cols;
    var moved := s.(board := Put(s.board, c, player), lastMove := c, lastPlayer := player,
                    numPlays := s.numPlays + 1);
    GetBoardStatus(moved).0
  }

  /** Replays `moves` with `makeMove`, one after the other. */
  function PlayMoves(s: Session, moves: seq<(Cell, Mark)>): (s': Session)
    requires s.Valid() && forall m :: m in moves ==> s.dims.Contains(m.0)
    ensures s'.Valid()
    decreases |moves|
  {
    if moves == [] then s
    else
      assert moves[0] in moves;
      var next := MakeMove(s, moves[0].0, moves[0].1);
      assert forall m :: m in moves[1..] ==> m in moves;
      PlayMoves(next, moves[1..])
  }

  /**
    A game is tallied once: whatever moves follow, the tallies rise by one
    when the game ends during them and by nothing otherwise, and a game that
    already ended keeps its status.
   */
  lemma {:induction false} OneTallyPerGame(s: Session, moves: seq<(Cell, Mark)>)
    requires s.Valid() && forall m :: m in moves ==> s.dims.Contains(m.0)
    ensures var s' := PlayMoves(s, moves);
            && s'.Tallies() == s.Tallies() + (if s.lastStatus == Unknown && s'.lastStatus != Unknown then 1 else 0)
            && (s.lastStatus != Unknown ==> s'.lastStatus == s.lastStatus)
    decreases |moves|
  {
    if moves != [] {
      assert moves[0] in moves;
      var next := MakeMove(s, moves[0].0, moves[0].1);
      assert forall m :: m in moves[1..] ==> m in moves;
      OneTallyPerGame(next, moves[1..]);
    }
  }

  /** After `clearBoard` the game is open again: the full scan finds no line and an empty cell. */
  lemma ClearBoardStartsOpenGame(s: Session)
    requires s.Valid()
    ensures GetBoardStatus(ClearBoard(s)).0 == ClearBoard(s)
    ensures GetBoardStatus(ClearBoard(s)).1 == Unknown.Value()
  {
    var s' := ClearBoard(s);
    assert s'.board[0][0] == Empty;
    assert HasEmpty(s'.board);
    forall l | l in s'.lines
      ensures !Complete(s'.board, l)
    {
    }
  }

  /**
    Filling the last NONE cell without completing a line ends an open game in
    a draw, and the draw is tallied.
   */
  lemma LastCellDraws(s: Session, c: Cell, player: Mark)
    requires s.Valid() && s.dims.Contains(c) && s.lastStatus == Unknown
    requires player != Empty
    requires forall e :: s.dims.Contains(e) && e != c ==> At(s.board, e) != Empty
    requires assert |s.board[c.row]| == s.dims.cols;
             forall l :: l in s.lines ==> !Complete(Put(s.board, c, player), l)
    ensures MakeMove(s, c, player).lastStatus == Draw
    ensures MakeMove(s, c, player).draws == s.draws + 1
  {
    var s' := MakeMove(s, c, player);
    assert forall e :: s.dims.Contains(e) ==> At(s'.board, e) != Empty;
    NoEmptyCell(s.dims, s'.board);
  }

  /**
    A move on an open board with no complete line that ends the game in a
    win is a win for the mover: every line it completes runs through the
    moved cell.
   */
  lemma {:induction false} MoveWinsForMover(s: Session, c: Cell, player: Mark)
    requires s.Valid() && s.dims.Contains(c) && s.lastStatus == Unknown
    requires forall l :: l in s.lines ==> !Complete(s.board, l)
    ensures MakeMove(s, c, player).lastStatus == Win ==>
              MakeMove(s, c, player).winner == player
              && (player == s.computer ==> MakeMove(s, c, player).gamesComputer == s.gamesComputer + 1)
  {
    var s' := MakeMove(s, c, player);
    if s'.lastStatus == Win {
      var l := s'.winnerLine;
      assert Complete(s'.board, l) && l in s.lines;
      assert |s.board[c.row]| == s.dims.cols;
      MoveCompletesOnlyLinesThroughIt(s.board, s.lines, c, player);
      var i :| 0 <= i < |l| && l[i] == c;
      assert At(s'.board, l[i]) == s'.winner;
    }
  }

  // ---------------------------------------------------------------- random moves

  /** The cells of `cells` that are NONE on `b`, in order. */
  function EmptyAmong(b: Board, cells: seq<Cell>): (r: seq<Cell>)
    ensures forall e :: e in r <==> e in cells && At(b, e) == Empty
    ensures IsSubsequence(r, cells)
  {
    if cells == [] then []
    else
      var rest := EmptyAmong(b, cells[1..]);
      assert cells == [cells[0]] + cells[1..];
      if At(b, cells[0]) == Empty then
        assert ([cells[0]] + rest)[1..] == rest;
        [cells[0]] + rest
      else rest
  }

  /** The cells of `cells` whose stored score is `v`, in order. */
  function ScoredAmong(sc: seq<seq<int>>, cells: seq<Cell>, v: int): (r: seq<Cell>)
    ensures forall e :: e in r <==> e in cells && ScoreAt(sc, e) == v
    ensures IsSubsequence(r, cells)
  {
    if cells == [] then []
    else
      var rest := ScoredAmong(sc, cells[1..], v);
      assert cells == [cells[0]] + cells[1..];
      if ScoreAt(sc, cells[0]) == v then
        assert ([cells[0]] + rest)[1..] == rest;
        [cells[0]] + rest
      else rest
  }

  /**
    The status refresh that ends `makeMove`: a terminal status stays, and on
    an open game the new status is WIN iff the full scan of the index finds a
    complete line and DRAW iff it finds none and no NONE cell is left (the
    meaning `Scan`'s postconditions give to its verdicts).
   */
  ghost predicate StatusRefreshed(s: Session, s': Session) {
    && (s.lastStatus != Unknown ==> s'.lastStatus == s.lastStatus)
    && (s.lastStatus == Unknown ==>
          && (s'.lastStatus == Win <==> Scan(s'.board, s.lines).Won?)
          && (s'.lastStatus == Draw <==> Scan(s'.board, s.lines).Drawn?))
  }

  /** No tally falls: with the total rising by at most one, exactly one counter rises when a game ends. */
  predicate TalliesKept(s: Session, s': Session) {
    s'.gamesHuman >= s.gamesHuman && s'.gamesComputer >= s.gamesComputer && s'.draws >= s.draws
  }

  /**
    The win record of the status refresh: when an open game ends in a win,
    the recorded winner and line are the verdict of the full scan (the first
    complete line of the index and its mark), and the winner's own counter
    is the one that rose.
   */
  ghost predicate WinRecorded(s: Session, s': Session) {
    s.lastStatus == Unknown && s'.lastStatus == Win ==>
      && Scan(s'.board, s.lines) == Won(s'.winner, s'.winnerLine)
      && (s'.winner == s.computer ==> s'.gamesComputer == s.gamesComputer + 1)
      && (s'.winner != s.computer ==> s'.gamesHuman == s.gamesHuman + 1)
  }

  /** The configuration is kept: index, marks and the limiter's settings. */
  predicate ConfigKept(s: Session, s': Session) {
    && s'.dims == s.dims && s'.lines == s.lines && s'.byCell == s.byCell
    && s'.computer == s.computer && s'.human == s.human
    && s'.limitMaxDepth == s.limitMaxDepth && s'.limitAnalysis == s.limitAnalysis
    && s'.analysisRatio == s.analysisRatio
  }

  /**
    `s'` is `s` after the computer's `makeMove` at `c`: only that cell
    changed, the move is recorded and counted, the score board and depth
    ceiling are kept, and a game ending on this move is tallied once.
   */
  ghost predicate Played(s: Session, s': Session, c: Cell) {
    && s'.Valid() && s'.dims == s.dims && s'.computer == s.computer
    && At(s'.board, c) == s.computer
    && (forall x :: x != c ==> At(s'.board, x) == At(s.board, x))
    && s'.lastMove == c && s'.lastPlayer == s.computer && s'.numPlays == s.numPlays + 1
    && s'.scoreBoard == s.scoreBoard && s'.maxDepth == s.maxDepth
    && s'.Tallies() == s.Tallies() + (if s.lastStatus == Unknown && s'.lastStatus != Unknown then 1 else 0)
    && TalliesKept(s, s')
    && StatusRefreshed(s, s')
    && WinRecorded(s, s')
    && ConfigKept(s, s')
  }

  /**
    `randomMove`: the computer plays the `i`-th NONE cell in row-major order;
    `i` stands for the uniformly drawn index.  On a full board the source's
    draw from an empty range fails, hence the precondition.
   */
  function RandomMove(s: Session, i: nat): (s': Session)
    requires s.Valid() && i < |EmptyAmong(s.board, AllCells(s.dims))|
    ensures var c := EmptyAmong(s.board, AllCells(s.dims))[i];
            && s.dims.Contains(c) && At(s.board, c) == Empty
            && Played(s, s', c)
  {
    var cands := EmptyAmong(s.board, AllCells(s.dims));
    assert cands[i] in cands;
    MakeMove(s, cands[i], s.computer)
  }

  /**
    `randomBestMove`: the computer plays the `i`-th cell, in row-major order,
    whose stored score equals `bestScore`.
   */
  function RandomBestMove(s: Session, bestScore: int, i: nat): (s': Session)
    requires s.Valid() && i < |ScoredAmong(s.scoreBoard, AllCells(s.dims), bestScore)|
    ensures var c := ScoredAmong(s.scoreBoard, AllCells(s.dims), bestScore)[i];
            && s.dims.Contains(c) && ScoreAt(s.scoreBoard, c) == bestScore
            && Played(s, s', c)
  {
    var cands := ScoredAmong(s.scoreBoard, AllCells(s.dims), bestScore);
    assert cands[i] in cands;
    MakeMove(s, cands[i], s.computer)
  }

  // ---------------------------------------------------------------- best move

  /** Stores score `v` for cell `c` of the score board. */
  function SetScore(d: Dims, sc: seq<seq<int>>, c: Cell, v: int): (sc': seq<seq<int>>)
    requires ScoresShaped(d, sc) && d.Contains(c)
    ensures ScoresShaped(d, sc')
    ensures ScoreAt(sc', c) == v
    ensures forall e :: e != c ==> ScoreAt(sc', e) == ScoreAt(sc, e)
  {
    sc[c.row := sc[c.row][c.col := v]]
  }

  /** A NONE cell of the root region. */
  predicate IsCandidate(b: Board, g: Region, c: Cell) {
    g.Contains(c) && At(b, c) == Empty
  }

  /**
    The score `bestMove` stores for `c`: the minimax score of the computer
    playing there, for a NONE cell of the root region; otherwise the cell
    keeps "not evaluated".
   */
  function RootScore(e: Engine, b: Board, g: Region, c: Cell): int
    requires e.Valid() && Shaped(e.d, b) && e.d.Contains(c)
  {
    if IsCandidate(b, g, c) then
      assert |b[c.row]| == e.d.cols;
      MinMax(e, Put(b, c, e.computer), 1, false, c)
    else Unknown.Value()
  }

  /** Root candidate `c` has been visited by the loops standing at (row, col). */
  predicate Visited(g: Region, c: Cell, row: int, col: int) {
    g.Contains(c) && (c.row < row || (c.row == row && c.col < col))
  }

  /** The root region lies on the board. */
  predicate RegionOnBoard(d: Dims, g: Region) {
    0 <= g.rowLo && g.rowHi <= d.rows && 0 <= g.colLo && g.colHi <= d.cols
  }

  /** The score table after the root loops reached (row, col): visited cells scored, the rest cleared. */
  ghost predicate ScoresSoFar(e: Engine, b: Board, g: Region, scores: seq<seq<int>>, row: int, col: int)
    requires e.Valid() && Shaped(e.d, b)
  {
    && ScoresShaped(e.d, scores)
    && (forall c :: e.d.Contains(c) ==>
          ScoreAt(scores, c) == (if Visited(g, c, row, col) then RootScore(e, b, g, c) else Unknown.Value()))
    && (forall c :: !e.d.Contains(c) ==> ScoreAt(scores, c) == Unknown.Value())
  }

  /** `best` is the highest score among the visited candidates, and is attained by one when there is one. */
  ghost predicate BestSoFar(b: Board, g: Region, scores: seq<seq<int>>, best: int, row: int, col: int) {
    && IsScore(best)
    && (forall c :: Visited(g, c, row, col) && IsCandidate(b, g, c) ==> ScoreAt(scores, c) <= best)
    && ((exists c :: Visited(g, c, row, col) && IsCandidate(b, g, c)) ==>
          exists c :: Visited(g, c, row, col) && IsCandidate(b, g, c) && ScoreAt(scores, c) == best)
    && ((forall c :: Visited(g, c, row, col) ==> !IsCandidate(b, g, c)) ==> best == Lose.Value())
  }

  /** What the root loops know when they stand at (row, col). */
  ghost predicate RootLoopInvariant(e: Engine, b: Board, g: Region, work: Board, scores: seq<seq<int>>,
                                    best: int, row: int, col: int)
    requires e.Valid() && Shaped(e.d, b)
  {
    work == b && ScoresSoFar(e, b, g, scores, row, col) && BestSoFar(b, g, scores, best, row, col)
  }

  /**
    The root loops of `bestMove` over the region `g`, starting from a cleared
    score board: every NONE cell gets the computer's mark, is scored by
    `minMax` at depth 1 with the human to move, and is reset to NONE; `best`
    is the highest score seen (LOSE when there is none).
   */
  method ScoreRoot(e: Engine, b: Board, g: Region) returns (scores: seq<seq<int>>, best: int, after: Board)
    requires e.Valid() && Shaped(e.d, b) && RegionOnBoard(e.d, g)
    ensures after == b
    ensures ScoresShaped(e.d, scores)
    ensures forall c :: e.d.Contains(c) ==> ScoreAt(scores, c) == RootScore(e, b, g, c)
    ensures forall c :: !e.d.Contains(c) ==> ScoreAt(scores, c) == Unknown.Value()
    ensures IsScore(best)
    ensures forall c :: IsCandidate(b, g, c) ==> ScoreAt(scores, c) <= best
    ensures (exists c :: IsCandidate(b, g, c)) ==> exists c :: IsCandidate(b, g, c) && ScoreAt(scores, c) == best
  {
    scores := ClearedScores(e.d);
    best := Lose.Value();
    var work := b;
    var row := if g.rowLo < g.rowHi then g.rowLo else g.rowHi;
    assert forall c :: !Visited(g, c, row, g.colLo);
    while row < g.rowHi
      invariant row <= g.rowHi
      invariant forall c :: g.Contains(c) && c.row < row ==> c.row < g.rowHi
      invariant g.rowLo <= row || row == g.rowHi
      invariant RootLoopInvariant(e, b, g, work, scores, best, row, g.colLo)
    {
      work, scores, best := ScoreRootRow(e, b, g, work, scores, best, row);
      row := row + 1;
    }
    assert forall c :: Visited(g, c, row, g.colLo) <==> g.Contains(c);
    after := work;
  }

  /** The inner (column) loop of the root loops, for one row of the region. */
  method ScoreRootRow(e: Engine, b: Board, g: Region, work: Board, scores: seq<seq<int>>, best: int, row: int)
    returns (work': Board, scores': seq<seq<int>>, best': int)
    requires e.Valid() && Shaped(e.d, b) && RegionOnBoard(e.d, g)
    requires g.rowLo <= row < g.rowHi
    requires RootLoopInvariant(e, b, g, work, scores, best, row, g.colLo)
    ensures RootLoopInvariant(e, b, g, work', scores', best', row + 1, g.colLo)
  {
    work', scores', best' := work, scores, best;
    var col := g.colLo;
    while col < g.colHi
      invariant g.colLo <= col
      invariant col <= g.colHi || col == g.colLo
      invariant RootLoopInvariant(e, b, g, work', scores', best', row, col)
    {
      work', scores', best' := ScoreRootCell(e, b, g, work', scores', best', row, col);
      col := col + 1;
    }
    forall c
      ensures Visited(g, c, row, col) <==> Visited(g, c, row + 1, g.colLo)
    {
    }
    SameVisited(e, b, g, work', scores', best', row, col, row + 1, g.colLo);
  }

  /** The invariant only depends on which cells have been visited. */
  lemma SameVisited(e: Engine, b: Board, g: Region, work: Board, scores: seq<seq<int>>, best: int,
                    row: int, col: int, row': int, col': int)
    requires e.Valid() && Shaped(e.d, b)
    requires RootLoopInvariant(e, b, g, work, scores, best, row, col)
    requires forall c :: Visited(g, c, row, col) <==> Visited(g, c, row', col')
    ensures RootLoopInvariant(e, b, g, work, scores, best, row', col')
  {
  }

  /** The cell at (row, col) is the only one the loops visit in their next step. */
  lemma NextVisited(g: Region, row: int, col: int)
    requires g.Contains(Cell(row, col))
    ensures forall x :: Visited(g, x, row, col + 1) <==> Visited(g, x, row, col) || x == Cell(row, col)
  {
    forall x
      ensures Visited(g, x, row, col + 1) <==> Visited(g, x, row, col) || x == Cell(row, col)
    {
      if x.row == row && x.col == col {
        assert x == Cell(row, col);
      }
    }
  }

  /** Storing the root score of (row, col), or nothing for a non-candidate, extends the score table. */
  lemma ScoresStep(e: Engine, b: Board, g: Region, scores: seq<seq<int>>, row: int, col: int, scores': seq<seq<int>>)
    requires e.Valid() && Shaped(e.d, b) && RegionOnBoard(e.d, g) && g.Contains(Cell(row, col))
    requires ScoresSoFar(e, b, g, scores, row, col)
    requires if IsCandidate(b, g, Cell(row, col)) then
               scores' == SetScore(e.d, scores, Cell(row, col), RootScore(e, b, g, Cell(row, col)))
             else scores' == scores
    ensures ScoresSoFar(e, b, g, scores', row, col + 1)
  {
    NextVisited(g, row, col);
  }

  /** Raising `best` to the new candidate's score keeps it the maximum over the visited candidates. */
  lemma BestStep(b: Board, g: Region, scores: seq<seq<int>>, best: int, row: int, col: int,
                 scores': seq<seq<int>>, v: int, best': int)
    requires g.Contains(Cell(row, col))
    requires BestSoFar(b, g, scores, best, row, col)
    requires forall x :: x != Cell(row, col) ==> ScoreAt(scores', x) == ScoreAt(scores, x)
    requires IsCandidate(b, g, Cell(row, col)) ==> IsScore(v) && ScoreAt(scores', Cell(row, col)) == v && best' == Max(v, best)
    requires !IsCandidate(b, g, Cell(row, col)) ==> best' == best
    ensures BestSoFar(b, g, scores', best', row, col + 1)
  {
    var c := Cell(row, col);
    NextVisited(g, row, col);
    if IsCandidate(b, g, c) {
      if v < best {
        assert best != Lose.Value();
        var w :| Visited(g, w, row, col) && IsCandidate(b, g, w) && ScoreAt(scores, w) == best;
        assert Visited(g, w, row, col + 1);
      } else {
        assert Visited(g, c, row, col + 1);
      }
    } else if exists x :: Visited(g, x, row, col + 1) && IsCandidate(b, g, x) {
      var w :| Visited(g, w, row, col + 1) && IsCandidate(b, g, w);
      assert Visited(g, w, row, col);
    }
  }

  /** One iteration of the root loops: place, search over the shared board, store, undo. */
  method ScoreRootCell(e: Engine, b: Board, g: Region, work: Board, scores: seq<seq<int>>, best: int, row: int, col: int)
    returns (work': Board, scores': seq<seq<int>>, best': int)
    requires e.Valid() && Shaped(e.d, b) && RegionOnBoard(e.d, g)
    requires g.rowLo <= row < g.rowHi && g.colLo <= col < g.colHi
    requires RootLoopInvariant(e, b, g, work, scores, best, row, col)
    ensures RootLoopInvariant(e, b, g, work', scores', best', row, col + 1)
  {
    var c := Cell(row, col);
    assert |work[row]| == e.d.cols;
    work', scores', best' := work, scores, best;
    if work[row][col] == Empty {
      PutFillsOneCell(work, c, e.computer);
      UndoRestores(work, c, e.computer);
      var trial := Put(work, c, e.computer);
      var score, shared := Search(e, trial, 1, false, c);
      scores' := SetScore(e.d, scores, c, score);
      if score >= best {
        best' := score;
      }
      work' := Put(shared, c, Empty);
    }
    ScoresStep(e, b, g, scores, row, col, scores');
    BestStep(b, g, scores, best, row, col, scores', ScoreAt(scores', c), best');
  }

  /** Cells left unscored hold UNKNOWN, below any score, so the best candidate score bounds every cell. */
  lemma UnscoredBelowBest(e: Engine, b: Board, g: Region, scores: seq<seq<int>>, best: int)
    requires e.Valid() && Shaped(e.d, b)
    requires forall x :: e.d.Contains(x) ==> ScoreAt(scores, x) == RootScore(e, b, g, x)
    requires IsScore(best)
    requires forall x :: IsCandidate(b, g, x) ==> ScoreAt(scores, x) <= best
    ensures forall x :: e.d.Contains(x) ==> ScoreAt(scores, x) <= best
  {
    forall x | e.d.Contains(x) && !IsCandidate(b, g, x)
      ensures ScoreAt(scores, x) <= best
    {
      assert RootScore(e, b, g, x) == Unknown.Value();
    }
  }

  /**
    The tie-break of `bestMove`: the `pick`-th (modulo their number) of the
    cells, in row-major order, whose score equals the best root score.
   */
  method ChooseTop(e: Engine, b: Board, g: Region, scores: seq<seq<int>>, best: int, pick: nat) returns (c: Cell, i: nat)
    requires e.Valid() && Shaped(e.d, b) && RegionOnBoard(e.d, g)
    requires forall x :: e.d.Contains(x) ==> ScoreAt(scores, x) == RootScore(e, b, g, x)
    requires IsScore(best)
    requires forall x :: IsCandidate(b, g, x) ==> ScoreAt(scores, x) <= best
    requires exists x :: IsCandidate(b, g, x) && ScoreAt(scores, x) == best
    ensures i < |ScoredAmong(scores, AllCells(e.d), best)| && c == ScoredAmong(scores, AllCells(e.d), best)[i]
    ensures e.d.Contains(c) && IsCandidate(b, g, c) && ScoreAt(scores, c) == best
    ensures forall x :: e.d.Contains(x) ==> ScoreAt(scores, x) <= best
  {
    UnscoredBelowBest(e, b, g, scores, best);
    var top :| IsCandidate(b, g, top) && ScoreAt(scores, top) == best;
    var cands := ScoredAmong(scores, AllCells(e.d), best);
    assert top in cands;
    i := pick % |cands|;
    c := cands[i];
    assert c in cands;
    ScoredIsCandidate(e, b, g, c, best);
  }

  /** A cell whose root score is a real score (not UNKNOWN) was a root candidate. */
  lemma ScoredIsCandidate(e: Engine, b: Board, g: Region, c: Cell, v: int)
    requires e.Valid() && Shaped(e.d, b) && e.d.Contains(c)
    requires RootScore(e, b, g, c) == v && IsScore(v)
    ensures IsCandidate(b, g, c)
  {
  }

  /**
    The second half of `bestMove`, on an open game: score the root region
    into the cleared score board, then play one of the top-scoring cells.
   */
  method PlayBest(s: Session, g: Region, pick: nat) returns (s': Session, c: Cell)
    requires s.Valid() && RegionOnBoard(s.dims, g)
    requires exists x :: IsCandidate(s.board, g, x)
    ensures s'.Valid()
    ensures s.dims.Contains(c) && IsCandidate(s.board, g, c)
    ensures forall x :: s.dims.Contains(x) ==> ScoreAt(s'.scoreBoard, x) == RootScore(s.SearchEngine(), s.board, g, x)
    ensures forall x :: s.dims.Contains(x) ==> ScoreAt(s'.scoreBoard, x) <= ScoreAt(s'.scoreBoard, c)
    ensures At(s'.board, c) == s.computer && forall x :: x != c ==> At(s'.board, x) == At(s.board, x)
    ensures s'.numPlays == s.numPlays + 1 && s'.lastMove == c && s'.lastPlayer == s.computer
    ensures s'.maxDepth == s.maxDepth && s'.dims == s.dims
    ensures s'.Tallies() == s.Tallies() + (if s.lastStatus == Unknown && s'.lastStatus != Unknown then 1 else 0)
    ensures TalliesKept(s, s')
    ensures StatusRefreshed(s, s')
    ensures WinRecorded(s, s')
    ensures ConfigKept(s, s')
    ensures s.lastStatus == Unknown && (forall l :: l in s.lines ==> !Complete(s.board, l)) && s'.lastStatus == Win ==>
              s'.winner == s.computer && s'.gamesComputer == s.gamesComputer + 1
  {
    var e := s.SearchEngine();
    var scores, best, after := ScoreRoot(e, s.board, g);
    var i;
    c, i := ChooseTop(e, s.board, g, scores, best, pick);
    var sd := s.(scoreBoard := scores);
    s' := RandomBestMove(sd, best, i);
    if s.lastStatus == Unknown && (forall l :: l in s.lines ==> !Complete(s.board, l)) {
      MoveWinsForMover(sd, c, sd.computer);
    }
  }

  /**
    The first half of `bestMove`: the depth ceiling recomputed under
    `limitMaxDepth`, then the score board cleared.
   */
  method PrepareSearch(s: Session) returns (sd: Session)
    requires s.Valid()
    requires s.limitMaxDepth ==> s.numPlays < s.dims.MaxPlays()
    ensures sd.Valid()
    ensures sd == s.(scoreBoard := ClearedScores(s.dims), maxDepth := sd.maxDepth)
    ensures !s.limitMaxDepth ==> sd.maxDepth == s.maxDepth
    ensures s.limitMaxDepth ==> IsDepthCeiling(s.dims.MaxPlays() - s.numPlays, sd.maxDepth)
  {
    var depth := s.maxDepth;
    if s.limitMaxDepth {
      depth := CalculateMaxDepth(s.dims.MaxPlays() - s.numPlays);
    }
    sd := WithSearchSettings(s, ClearedScores(s.dims), depth);
  }

  /** The session with a fresh score board (of the board's shape) and depth ceiling; it stays consistent. */
  function WithSearchSettings(s: Session, sc: seq<seq<int>>, depth: int): (s': Session)
    requires s.Valid() && ScoresShaped(s.dims, sc)
    ensures s'.Valid()
    ensures s' == s.(scoreBoard := sc, maxDepth := depth)
  {
    var s' := s.(scoreBoard := sc, maxDepth := depth);
    assert s'.dims == s.dims && s'.lines == s.lines && s'.byCell == s.byCell && s'.board == s.board;
    assert IsReverseIndex(s'.dims, s'.lines, s'.byCell);
    assert Shaped(s'.dims, s'.board);
    assert ScoresShaped(s'.dims, s'.scoreBoard);
    s'
  }

  /**
    `bestMove`.  With `limitMaxDepth` the depth ceiling is recomputed first,
    then the scores are cleared.  When the board is full by the play count
    or the game has ended nothing else happens.  Otherwise every NONE cell of
    the root region is scored, and the computer plays one of the cells that
    reached the best score; `pick` stands for the random draw and is reduced
    to an index among those tied cells.
   */
  method BestMove(s: Session, pick: nat) returns (s': Session, move: Option<Cell>)
    requires s.Valid()
    requires s.limitMaxDepth ==> s.numPlays < s.dims.MaxPlays()
    requires s.numPlays < s.dims.MaxPlays() && s.lastStatus == Unknown ==>
               exists c :: IsCandidate(s.board, RootRegion(s.dims, s.limitAnalysis, s.lastMove, s.analysisRatio), c)
    ensures s'.Valid()
    ensures !s.limitMaxDepth ==> s'.maxDepth == s.maxDepth
    ensures s.limitMaxDepth ==> IsDepthCeiling(s.dims.MaxPlays() - s.numPlays, s'.maxDepth)
    ensures move.None? <==> s.numPlays >= s.dims.MaxPlays() || s.lastStatus != Unknown
    ensures move.None? ==> s' == s.(scoreBoard := ClearedScores(s.dims), maxDepth := s'.maxDepth)
    ensures move.Some? ==>
              var c := move.value;
              var g := RootRegion(s.dims, s.limitAnalysis, s.lastMove, s.analysisRatio);
              var e := Minimax.Engine(s.dims, s.byCell, s.computer, s.human, s'.maxDepth);
              && s.dims.Contains(c) && IsCandidate(s.board, g, c)
              && (forall x :: s.dims.Contains(x) ==> ScoreAt(s'.scoreBoard, x) <= ScoreAt(s'.scoreBoard, c))
              && (forall x :: s.dims.Contains(x) ==> ScoreAt(s'.scoreBoard, x) == RootScore(e, s.board, g, x))
              && At(s'.board, c) == s.computer
              && (forall x :: x != c ==> At(s'.board, x) == At(s.board, x))
              && s'.numPlays == s.numPlays + 1 && s'.lastMove == c && s'.lastPlayer == s.computer
              && s'.Tallies() == s.Tallies() + (if s'.lastStatus != Unknown then 1 else 0)
              && TalliesKept(s, s')
              && StatusRefreshed(s, s')
              && WinRecorded(s, s')
              && ConfigKept(s, s')
              && ((forall l :: l in s.lines ==> !Complete(s.board, l)) && s'.lastStatus == Win ==>
                    s'.winner == s.computer && s'.gamesComputer == s.gamesComputer + 1)
  {
    var sd := PrepareSearch(s);
    if s.numPlays >= s.dims.MaxPlays() || s.lastStatus != Unknown {
      return sd, None;
    }
    var g := RootRegion(s.dims, s.limitAnalysis, s.lastMove, s.analysisRatio);
    assert sd.board == s.board;
    var c;
    s', c := PlayBest(sd, g, pick);
    assert sd.SearchEngine() == Minimax.Engine(s.dims, s.byCell, s.computer, s.human, s'.maxDepth);
    move := Some(c);
  }
}
